=== FILE: README.md ===
# Knowledge-unit ingestion and search, modelled in Dafny

This project models the deterministic core of a knowledge-transfer platform.
The platform turns raw text from issue trackers, wiki pages and transcripts
into summarised, tagged, embedded knowledge units, and it answers semantic
searches over the stored units.

The model covers two parts of the platform:

- The ingestion pipeline of `app/pipeline.py`:
  - `preprocess_text` collapses whitespace runs and strips the ends.
  - `spacy_sentence_tokenize` strips the segmenter's sentences and drops the empty ones.
  - `cluster_chunks` groups the sentences by cluster label, orders the groups by each label's first occurrence, and space-joins each group.
  - `summarize_chunks` keeps chunks of fewer than 30 words verbatim.
  - `extract_tags` lower-cases and deduplicates the NER labels.
  - `package_for_db` and `add_embeddings` build the records.
  - `run_pipeline` composes the steps above.
- The search code, which exists in two diverging copies:
  - `app/endpoints/search.py` keeps every document that has an `embedding` key. Its `search_faiss` checks each returned position against `len(valid_docs)`. The endpoint zips results with scores, projects five fields and sorts by score, best first. Any error becomes an HTTP 500.
  - `faiss_search.py` skips documents whose embedding is missing or `None`. Its `search_faiss` maps every returned position back to a document with no check at all.

The machine-learning models are passed in as opaque functions:
- the spaCy segmenter, seen through the spans it returns;
- agglomerative clustering, seen through the labels it assigns;
- BART summarisation;
- BERT entity recognition;
- the sentence-transformer embedding;
- FAISS `IndexFlatIP.search`, seen through one row of distances and one row of positions.

The clock and `uuid.uuid4()` are parameters: a timestamp string, and a function from call position to id. A stored document is a record whose fields are each missing, `None`, or a value (`Records.Field`), because the two search copies treat a missing embedding and a `None` one differently.

Modules:
- `Common`: `Option`, `Result`, deduplication, filtering, and Python list indexing.
- `Sorting`: Python's stable sort by key.
- `Text`: whitespace, `strip`, `split`, `join`, `lower`, and `preprocess_text`.
- `Sentences`, `Chunking`, `Records`, `Pipeline`: ingestion.
- `Faiss`: index assembly, shared by both copies of the search code, and the corrected, range-checked result loop `Faiss.PickInRange`. Neither copy has that check; only the corrected members `SearchEndpoint.SearchFaiss` and `FaissSearch.SearchFaissInRange` use it.
- `SearchEndpoint`: `app/endpoints/search.py`.
- `FaissSearch`: `faiss_search.py`.
- `SearchVersions`: how the two search copies relate to each other and to ingested records.

## Model

| member | source | states |
|---|---|---|
| `Text.Collapse` | app/pipeline.py:43 | `re.sub(r'\s+', ' ', s)` leaves every whitespace character a plain space that is followed by a non-space or ends the string; the first character is a space exactly when the input starts with whitespace |
| `Text.CollapseKeepsContent` | app/pipeline.py:43 | collapsing loses only whitespace: the non-whitespace characters are unchanged and in order |
| `Text.Normalize` | app/pipeline.py:43 | `preprocess_text` output has whitespace only as single plain spaces strictly between two non-whitespace characters: no leading or trailing whitespace, never two whitespace characters in a row |
| `Text.NormalizeKeepsContent` | app/pipeline.py:43 | `preprocess_text` keeps every non-whitespace character of the input, in order |
| `Text.NormalizeOfNormal` | app/pipeline.py:43 | a string already in that shape is returned unchanged |
| `Text.NormalizeIdempotent` | app/pipeline.py:43 | `preprocess_text(preprocess_text(s)) == preprocess_text(s)` |
| `Text.NormalizeEmptyIffBlank` | app/pipeline.py:43 | the output is `""` if and only if the input is empty or all whitespace |
| `Text.TrimStart` | app/pipeline.py:48 | `lstrip()` returns a string no longer than its input that is empty or starts with a non-whitespace character |
| `Text.TrimStartSuffix` | app/pipeline.py:48 | `lstrip()` returns a suffix of its input, and everything it removes is whitespace |
| `Text.TrimEnd` | app/pipeline.py:48 | `rstrip()` returns a string no longer than its input that is empty or ends with a non-whitespace character |
| `Text.TrimEndPrefix` | app/pipeline.py:48 | `rstrip()` returns a prefix of its input, and everything it removes is whitespace |
| `Text.Strip` | app/pipeline.py:48 | `strip()` returns a string with no whitespace at either end |
| `Text.StripFixpoints` | app/pipeline.py:48 | `strip()` leaves a string unchanged exactly when it has no whitespace at either end |
| `Text.StripIdempotent` | app/pipeline.py:48 | stripping twice is stripping once |
| `Text.StripKeepsContent` | app/pipeline.py:48 | `strip()` removes only whitespace |
| `Text.Words` | app/pipeline.py:73 | every word `split()` returns is non-empty and contains no whitespace |
| `Text.WordsKeepContent` | app/pipeline.py:73 | the words run together are exactly the non-whitespace characters of the input, in order |
| `Text.WordsOfJoin` | app/pipeline.py:73 | splitting words joined by single spaces gives the same words back, so `split()` breaks words exactly at whitespace |
| `Text.WordsOfCollapse` | app/pipeline.py:43 | collapsing whitespace runs leaves the words as they were: a run between two words survives as a separator |
| `Text.WordsOfStrip` | app/pipeline.py:43 | stripping the ends does not change the words |
| `Text.NormalIsJoinedWords` | app/pipeline.py:43 | a string in `preprocess_text`'s output shape is its words joined by single spaces |
| `Text.NormalizeIsJoinedWords` | app/pipeline.py:43 | `preprocess_text(s)` equals `" ".join(s.split())` |
| `Text.JoinKeepsContent` | app/pipeline.py:67 | joining with a whitespace separator adds only whitespace: the non-whitespace content is that of the pieces, in order |
| `Text.Lower` | app/pipeline.py:37 | `lower()` keeps the length, leaves no ASCII capital, turns each capital into its small letter and leaves every other character as it is |
| `Sentences.SentenceTokenize` | app/pipeline.py:48 | every sentence is non-empty and has no whitespace at either end; there are at most as many sentences as spans |
| `Sentences.SentenceTokenizeAppend` | app/pipeline.py:48 | sentences come out in segmenter order: tokenising two runs of spans gives the two results concatenated |
| `Sentences.SentenceTokenizeCons` | app/pipeline.py:48 | the first span contributes its stripped text first when that text is non-empty, and nothing otherwise |
| `Sentences.SentenceTokenizeKeeps` | app/pipeline.py:48 | every span with visible content appears among the sentences, stripped |
| `Sentences.SentenceTokenizeKeepsContent` | app/pipeline.py:48 | dropping and stripping spans loses only whitespace |
| `Sentences.SentencesCoverText` | app/pipeline.py:47-48 | when the spans carry the text's non-whitespace content in order (the whitespace between sentences may be dropped, as `Span.text` drops it), the sentences carry all of that content in order, and an empty text gives no sentence |
| `Sentences.TwoSentencesCoverText` | app/pipeline.py:46-48 | the spans `"A."` and `"B."`, as the segmenter reports the text `"A. B."` without the space between them, give sentences with all of its non-whitespace content |
| `Chunking.FirstIndex` | app/pipeline.py:66 | the sort key is the first position of the label, and the label occurs nowhere before it |
| `Chunking.ClusterChunks` | app/pipeline.py:50-55 | no sentences give no chunks, and one sentence is returned as it is |
| `Chunking.Find` | app/pipeline.py:65 | the dictionary lookup finds the key's position, or reports it absent |
| `Chunking.GroupByLabel` | app/pipeline.py:63-65 | the `setdefault(...).append(...)` loop leaves the distinct labels as keys, in first-occurrence order (the labels without repeats), each key holding exactly the sentences carrying that label, in their original order |
| `Chunking.KeysByFirstOccurrence` | app/pipeline.py:63-66 | the dictionary's keys are strictly increasing in first-occurrence position |
| `Chunking.ChunkOrderIsInsertionOrder` | app/pipeline.py:66 | the `sorted(..., key=first occurrence)` call returns the keys in the dictionary's insertion order |
| `Chunking.ChunksAreJoinedGroups` | app/pipeline.py:63-67 | there is one chunk per distinct label, and chunk `i` is the space-join of the sentences labelled with the `i`-th distinct label to appear |
| `Chunking.ChunkCount` | app/pipeline.py:63-67 | there is one chunk per distinct cluster label |
| `Chunking.FirstChunkLeads` | app/pipeline.py:63-67 | the first chunk begins with the first sentence |
| `Chunking.ChunksPartitionSentences` | app/pipeline.py:64-65 | the groups, taken together in chunk order, are a permutation of the sentences: every sentence lands in exactly one chunk |
| `Chunking.OneClusterOneChunk` | app/pipeline.py:63-67 | when every label is equal there is one chunk, `" ".join(sentences)` |
| `Chunking.EachOwnClusterUnchanged` | app/pipeline.py:63-67 | when all labels are distinct the chunks are the sentences |
| `Records.TagOf` | app/pipeline.py:35-37 | `entity_group` is used when it is non-empty, otherwise `entity`; an entity yields a tag exactly when one of the two is non-empty, and the tag is lower-case |
| `Records.RawTags` | app/pipeline.py:32-37 | the tag list has at most one tag per entity, each non-empty and lower-case |
| `Records.RawTagsMembers` | app/pipeline.py:32-37 | the tag list holds exactly the tags of the entities that have one |
| `Records.ExtractTags` | app/pipeline.py:30-38 | `extract_tags` returns no duplicates, no empty strings and only lower-case tags |
| `Records.ExtractTagsMembers` | app/pipeline.py:30-38 | a tag is in the result of `extract_tags` exactly when some entity yields it |
| `Records.CaseInsensitiveTags` | app/pipeline.py:35-38 | `ORG` under `entity_group` and `org` under `entity` collapse to the single tag `org` |
| `Records.SummarizeChunks` | app/pipeline.py:70-82 | one summary per chunk, in order, with `chunk_text` copied; chunks of fewer than 30 words are their own summary, longer ones get the summariser's output |
| `Records.PackageForDb` | app/pipeline.py:84-102 | one record per summary, in order, with id from the uuid oracle, copied text and summary, `speaker == source`, `source_audio_id == source_id`, tags from `extract_tags` of the chunk and no embedding; all records share one timestamp ending in `Z` |
| `Records.AddEmbeddings` | app/pipeline.py:104-108 | each record gains the embedding of its `chunk_text`, and nothing else about it changes |
| `Pipeline.StoreChunks` | app/pipeline.py:122-124 | summarising, packaging and embedding give, for chunk `i`, a record with the `i`-th id, the chunk, its summary, the run's timestamp, the source `Jira`, its tags, the source id and its embedding |
| `Pipeline.RunPipeline` | app/pipeline.py:110-125 | `run_pipeline` returns one complete record per chunk of the normalised, segmented, clustered text, in chunk order |
| `Pipeline.BlankInputNoRecords` | app/pipeline.py:119-125 | empty or whitespace-only input yields no record, given a segmenter that finds no visible content in `""` |
| `Pipeline.SentencesKeepContent` | app/pipeline.py:119-120 | given a segmenter whose spans keep the normalised text's non-whitespace content in order, the sentences carry all the non-whitespace content of the raw text, in order |
| `Pipeline.RecordIdsDistinct` | app/pipeline.py:94 | the records of one run have pairwise distinct ids when the uuid oracle does not repeat |
| `Pipeline.StoreChunksTwice` | app/pipeline.py:84-108 | storing the same chunks twice gives records that differ only in id and timestamp |
| `Pipeline.RepeatedIngestion` | app/pipeline.py:110-125 | ingesting the same text twice gives the same records up to id and timestamp, and the ids of the two runs differ |
| `Faiss.Assemble` | app/endpoints/search.py:33-41 | no collected document is the "no valid embeddings" error; otherwise the index builds exactly when every collected embedding is a vector of the index width, and its rows are those embeddings, row for row with the documents |
| `SearchEndpoint.BuildIndex` | app/endpoints/search.py:21-41 | the index keeps exactly the documents that have an `embedding` key, in order, row for row with their embeddings; it fails with "no valid embeddings" exactly when no document has the key, and a stored `None` embedding makes it fail |
| `SearchEndpoint.PickGuardedKeepsPassing` | app/endpoints/search.py:63-68 | as written, when the loop does not raise, a position at or above `len(valid_docs)` is skipped and every position passing `idx < len(valid_docs)` gives Python's `valid_docs[idx]`, in row order |
| `SearchEndpoint.PickGuardedAsWritten` | app/endpoints/search.py:63-68 | as written, the loop raises exactly when a position is below `-len(valid_docs)`; when every position passes the guard, result `i` is Python's `valid_docs[indices[i]]`, so negative positions count from the end |
| `Faiss.PickInRange` | app/endpoints/search.py:63-68 | with the intended guard, only documents of the index are returned, no more results than positions, and with all positions in range result `i` is `valid_docs[indices[i]]` |
| `Faiss.PickInRangeIsFiltered` | app/endpoints/search.py:63-68 | with the intended guard, a position outside `0 <= idx < len(valid_docs)` is skipped and every other position gives `valid_docs[idx]`, in row order |
| `SearchEndpoint.SearchFaissAsWritten` | app/endpoints/search.py:43-69 | an empty store gives `([], [])`; a build error propagates; the search fails, with `IndexError`, exactly when a position is below `-len(valid_docs)`; the scores are the whole distance row, there are no more results than positions, and so no more results than scores when FAISS returns as many distances as positions |
| `SearchEndpoint.SearchFaiss` | app/endpoints/search.py:43-69 | with the corrected guard: an empty store gives `([], [])` without building an index; a build error propagates; otherwise the search succeeds, the scores are the whole distance row, and there are no more results than positions (nor than scores when the two rows have one length), each an indexed document |
| `SearchEndpoint.ZipIsPairwise` | app/endpoints/search.py:81-90 | the response entries before sorting are exactly what Python's `zip` yields, pair by pair, stopping at the shorter list, each result projected to its five fields beside its score |
| `SearchEndpoint.EndpointAsWritten` | app/endpoints/search.py:71-94 | as written: an empty store answers no results; a build error, or a position below `-len(valid_docs)`, answers HTTP 500 with that error, and those are the only failures; a success has no more entries than positions or scores |
| `SearchEndpoint.Endpoint` | app/endpoints/search.py:71-94 | with the corrected guard: an empty store answers no results; a build error answers HTTP 500 with that error; otherwise the answer is a success with no more entries than positions or scores |
| `SearchEndpoint.Respond` | app/endpoints/search.py:79-94 | an error becomes HTTP 500 with that error; a success is a permutation of the zipped entries sorted by score, best first, with tied entries kept in zip order |
| `SearchEndpoint.EmptyStoreNoHits` | app/endpoints/search.py:55-57 | an empty store answers with no results |
| `SearchEndpoint.NoEmbeddingsIsServerError` | app/endpoints/search.py:33-34 | a store where no document has an embedding key answers HTTP 500 with the "no valid embeddings" error |
| `Faiss.PickInRangeSkipsPadding` | app/endpoints/search.py:63-68 | real positions followed by `-1` padding give exactly the documents at the real positions |
| `SearchEndpoint.EndpointReturnsRealHits` | app/endpoints/search.py:79-92 | with the corrected guard and a well-formed FAISS row, the endpoint returns `min(top_k, n)` entries, which are the ranked documents each paired with its own score, best first |
| `SearchEndpoint.AsWrittenPaddingWraps` | app/endpoints/search.py:65-68 | as written, a padded FAISS row yields `top_k` results, every surplus one being the last indexed document |
| `SearchEndpoint.DuplicateHitAsWritten` | app/endpoints/search.py:63-68 | one stored document searched with `top_k = 2`: as written the endpoint lists the document twice, the second time with score `-FLT_MAX` |
| `SearchEndpoint.SingleHitCorrected` | app/endpoints/search.py:63-68 | the same search with the range check the comment describes lists the document once, with its real score |
| `FaissSearch.BuildIndex` | faiss_search.py:21-48 | the index keeps exactly the documents whose embedding is present and not `None`, in order, row for row with their embeddings; it fails with "no valid embeddings" exactly when none has one, and builds exactly when some has one and all of them have the index width |
| `FaissSearch.PickAll` | faiss_search.py:63-66 | every position is mapped by Python indexing: the loop raises exactly when some position is outside `[-len(documents), len(documents))`, and otherwise result `i` is `documents[indices[i]]` |
| `FaissSearch.SearchFaiss` | faiss_search.py:50-67 | one result per returned position, by Python indexing, and the scores are the distance row unmodified; it fails exactly when a position is out of Python's range |
| `FaissSearch.SearchReturnsRankedDocuments` | faiss_search.py:61-67 | searching the built index with its own documents and no more neighbours than documents returns exactly the ranked documents, paired with the distance row |
| `FaissSearch.PaddingBecomesLastDocument` | faiss_search.py:61-67 | asking for more neighbours than documents does not fail; every `-1` pad becomes the last document |
| `FaissSearch.SearchFaissInRange` | faiss_search.py:50-67 | with a range check added to the loop: it never fails, the scores are the distance row unmodified, and every result is one of the documents, with no more results than positions |
| `FaissSearch.InRangeReturnsRealHits` | faiss_search.py:61-67 | with the range check, a padded FAISS row gives exactly the `min(top_k, n)` ranked documents, each once |
| `FaissSearch.InRangeAgreesWithoutPadding` | faiss_search.py:61-67 | when no more neighbours than documents are asked for, the range check changes nothing: the script as written and the corrected one answer alike |
| `SearchVersions.BuildsAgreeWithoutNull` | faiss_search.py:29-34 | without a stored `None` embedding, the two `build_faiss_index` copies give the same result |
| `SearchVersions.NullEmbeddingDiverges` | faiss_search.py:29-34 | with a stored `None` embedding the endpoint's build fails, while the script's build skips that document |
| `SearchVersions.CompleteStoreIndexedWhole` | app/endpoints/search.py:26-41 | a non-empty store whose embeddings all have the index width is indexed whole, in order, by both copies alike |
| `SearchVersions.StoredRecordsComplete` | app/pipeline.py:104-108 | every stored record carries an embedding of the index width, given an embedding model of that width |
| `SearchVersions.StoredRecordsIndexedWhole` | app/pipeline.py:104-108 | the records stored for any non-empty run of chunks are indexed whole, in order, by the endpoint's build, given embeddings of the index width |
| `SearchVersions.StoredRecordsBuildsAgree` | faiss_search.py:29-34 | over stored records the script's build and the endpoint's build give the same result, given embeddings of the index width |
| `SearchVersions.IngestedRecordsAllIndexed` | app/pipeline.py:110-125 | every record of a non-empty ingestion run is indexed, in order, by the endpoint's build, given embeddings of the index width |
| `Sorting.SortBySorted` | app/endpoints/search.py:91 | the keys of the sorted sequence never decrease |
| `Sorting.SortByPermutation` | app/endpoints/search.py:91 | the sorted sequence is a permutation of the input |
| `Sorting.SortByStable` | app/endpoints/search.py:91 | the sort is stable: the elements sharing any one key keep their relative order |
| `Sorting.SortBySortedIdentity` | app/pipeline.py:66 | sorting an already sorted sequence changes nothing |
| `Common.Dedup` | app/pipeline.py:38 | no element occurs twice in the deduplicated sequence, which is no longer than its input |
| `Common.DedupMembers` | app/pipeline.py:38 | deduplication drops no element: the result holds exactly the elements of the input |
| `Common.DedupCardinality` | app/pipeline.py:63-67 | the number of dictionary keys is the number of distinct labels |

## Left out

- The models themselves: spaCy segmentation, sentence-transformer embeddings, agglomerative clustering, BART summarisation and BERT NER. Each is an opaque function parameter, so nothing is claimed about their outputs. Where a lemma needs it, the segmenter is assumed to keep the non-whitespace content of its input, in order, across its spans; spans need not concatenate back to the input, since `Span.text` drops the whitespace after a sentence.
- `embed_model.encode(sentences)` in `cluster_chunks` is not modelled. Its only effect is the clustering input, and the clustering is opaque.
- L2 normalisation, float32 conversion, inner-product scoring and FAISS internals. Scores are opaque reals. A failing `np.array(...).astype("float32")` or `index.add` (a `None` or wrongly sized embedding) is one error, `MalformedEmbeddings`.
- FAISS's behaviour for `top_k <= 0`, and its padding rule for `top_k` larger than the index, are not derived. The padding rule is stated as the hypothesis `Faiss.PaddedRow` wherever a lemma needs it.
- `uuid.uuid4()` and `datetime.utcnow()`. They are parameters (an id function and a timestamp string), so uniqueness of ids is a hypothesis.
- MongoDB access (`get_mongo_documents`): the stored documents are a parameter.
- The Jira and Confluence connectors, the ingest endpoints' raw-text assembly, audio recording and transcription, OAuth, FastAPI wiring, the React frontend, and `rag_system.py`. All of these are I/O or thin wrappers.
- The `__main__` block of `faiss_search.py` (console input and output), and the `APIRouter` name error that `faiss_search.py:6` raises on import.
- Debug `print` calls.
- Records.ExtractTags: returns the tags in first-occurrence order. Python's `list(set(tags))` has no defined order, so its contract states membership, uniqueness and case only.
- Text.Lower: maps only ASCII capitals, because NER labels are ASCII. Python's full Unicode case mapping is not modelled.
- Text.Join: its own contract states only that the first piece is a prefix. Its content is stated by `Text.JoinKeepsContent`.
- Chunking.ClusterChunks: its own contract covers the zero- and one-sentence cases. The grouping is stated by the chunking lemmas.
- SearchEndpoint.Project: a projection with no contract of its own. `SearchEndpoint.ZipIsPairwise` states it.
- Exceptions raised inside the summariser, NER model or encoder are not modelled: the oracles are total functions. In the source such an exception aborts `run_pipeline`, and in `search_endpoint` it becomes an HTTP 500.
- The `top_k = 3` default of `search_faiss` and `search_endpoint`, and the `top_k = 24` of the script's `__main__`, have no constant: `top_k` is always a parameter.
- Python's whitespace class is written out as the set `str.isspace()` accepts (`Text.IsSpace`).

## Findings

| source | as written | input that shows it | evidently intended | confidence | as-written member | corrected member |
|---|---|---|---|---|---|---|
| app/endpoints/search.py:67 | `if idx < len(valid_docs)` admits negative positions. When `top_k` exceeds the number of indexed documents, FAISS pads the row with `-1` and distance `-FLT_MAX`, so each pad becomes `valid_docs[-1]` and the last document is returned again | one stored document with an embedding, `top_k = 2`: FAISS returns positions `[0, -1]` and distances `[0.9, -FLT_MAX]`, and the endpoint lists the document twice | keep only positions with `0 <= idx < len(valid_docs)`, as the comment on line 66 says, so the response has `min(top_k, n)` entries | high; not executed | `SearchEndpoint.SearchFaissAsWritten` and `SearchEndpoint.EndpointAsWritten` (shown by `SearchEndpoint.DuplicateHitAsWritten` and `SearchEndpoint.AsWrittenPaddingWraps`) | `SearchEndpoint.SearchFaiss` and `SearchEndpoint.Endpoint` (proved by `SearchEndpoint.EndpointReturnsRealHits` and `SearchEndpoint.SingleHitCorrected`) |
| faiss_search.py:65-66 | every returned position is used as a list index with no check. When `top_k` exceeds the number of indexed documents, each `-1` pad becomes `documents[-1]`, so the last document is repeated; the script's `__main__` asks for 24 neighbours | a store of `n < 24` documents searched with `top_k = 24`: FAISS returns `24 - n` pads, and the script prints the last document `24 - n` more times | skip positions outside `0 <= idx < len(documents)`, the check the endpoint's copy of this loop describes, so at most `min(top_k, n)` results come back | medium; not executed | `FaissSearch.SearchFaiss` (shown by `FaissSearch.PaddingBecomesLastDocument`) | `FaissSearch.SearchFaissInRange` (proved by `FaissSearch.InRangeReturnsRealHits` and `FaissSearch.InRangeAgreesWithoutPadding`) |

=== FILE: chunking.dfy ===
/** `cluster_chunks` (app/pipeline.py) after the clustering model has run: the
    cluster labels are an input, one per sentence, and this module groups the
    sentences by label, orders the groups by the first sentence carrying each
    label, and joins every group with single spaces. */
module Chunking {
  import opened Common
  import opened Text
  import Sorting

  /** Default cosine-distance cut of the clustering; it is only handed to
      the clustering model. */
  const DefaultDistanceThreshold: real := 0.35

  /** The position of the first sentence labelled `lab`; `|labels|` when
      `lab` does not occur (Python would raise `StopIteration`, which the
      source never reaches because it only asks about labels it has seen). */
  function FirstIndex(labels: seq<int>, lab: int): (r: nat)
    ensures r <= |labels|
    ensures r < |labels| <==> lab in labels
    ensures r < |labels| ==> labels[r] == lab
    ensures forall j :: 0 <= j < r ==> labels[j] != lab
  {
    if labels == [] then 0
    else if labels[0] == lab then 0
    else 1 + FirstIndex(labels[1..], lab)
  }

  /** The sort key of `cluster_chunks`: a label's first position. */
  function FirstIndexKey(labels: seq<int>): int -> real {
    (lab: int) => FirstIndex(labels, lab) as real
  }

  /** `chunks[lab]` after the grouping loop: the sentences labelled `lab`,
      in their original order. */
  function Group(sentences: seq<string>, labels: seq<int>, lab: int): (r: seq<string>)
    requires |sentences| == |labels|
    ensures |r| <= |sentences|
    ensures lab !in labels ==> r == []
  {
    if labels == [] then []
    else (if labels[0] == lab then [sentences[0]] else []) + Group(sentences[1..], labels[1..], lab)
  }

  /** The labels in the order the chunks are emitted: the dictionary's keys
      sorted by where each label first occurs. The keys of `chunks` are
      in insertion order, which is `Dedup(labels)`. */
  function ChunkOrder(labels: seq<int>): seq<int> {
    Sorting.SortBy(Dedup(labels), FirstIndexKey(labels))
  }

  /** `cluster_chunks(sentences)` given the labels the clustering model
      assigns to them (only consulted for two or more sentences). */
  function ClusterChunks(sentences: seq<string>, labels: seq<int>): (r: seq<string>)
    requires |sentences| >= 2 ==> |labels| == |sentences|
    ensures |sentences| <= 1 ==> r == sentences
  {
    if sentences == [] then []
    else if |sentences| == 1 then sentences
    else JoinGroups(sentences, labels, ChunkOrder(labels))
  }

  /** One chunk per key: the key's sentences joined with single spaces. */
  function JoinGroups(sentences: seq<string>, labels: seq<int>, keys: seq<int>): (r: seq<string>)
    requires |sentences| == |labels|
    ensures |r| == |keys|
  {
    if keys == [] then []
    else [Join(Group(sentences, labels, keys[0]), " ")] + JoinGroups(sentences, labels, keys[1..])
  }

  /** The `i`-th joined group is the join of the group of the `i`-th key. */
  lemma {:induction false} JoinGroupsAt(sentences: seq<string>, labels: seq<int>, keys: seq<int>, i: nat)
    requires |sentences| == |labels| && i < |keys|
    ensures JoinGroups(sentences, labels, keys)[i] == Join(Group(sentences, labels, keys[i]), " ")
  {
    if i > 0 {
      JoinGroupsAt(sentences, labels, keys[1..], i - 1);
    }
  }

  /** All the groups for `keys`, concatenated in the order of `keys`. */
  function Gather(sentences: seq<string>, labels: seq<int>, keys: seq<int>): seq<string>
    requires |sentences| == |labels|
  {
    if keys == [] then []
    else Gather(sentences, labels, keys[..|keys| - 1]) + Group(sentences, labels, keys[|keys| - 1])
  }

  /** The groups of `keys`, key for key: the values of the dictionary. */
  function Groups(sentences: seq<string>, labels: seq<int>, keys: seq<int>): (r: seq<seq<string>>)
    requires |sentences| == |labels|
    ensures |r| == |keys|
  {
    if keys == [] then [] else [Group(sentences, labels, keys[0])] + Groups(sentences, labels, keys[1..])
  }

  /** Entry `k` of `Groups` is the group of the `k`-th key. */
  lemma {:induction false} GroupsAt(sentences: seq<string>, labels: seq<int>, keys: seq<int>, k: nat)
    requires |sentences| == |labels| && k < |keys|
    ensures Groups(sentences, labels, keys)[k] == Group(sentences, labels, keys[k])
  {
    if k > 0 {
      GroupsAt(sentences, labels, keys[1..], k - 1);
    }
  }

  /** A list of groups that agrees with `Groups` key for key is `Groups`. */
  lemma {:induction false} GroupsPointwise(sentences: seq<string>, labels: seq<int>,
                                           keys: seq<int>, groups: seq<seq<string>>)
    requires |sentences| == |labels| && |groups| == |keys|
    requires forall k :: 0 <= k < |keys| ==> groups[k] == Group(sentences, labels, keys[k])
    ensures groups == Groups(sentences, labels, keys)
  {
    if keys != [] {
      assert forall k :: 0 <= k < |keys| - 1 ==> groups[1..][k] == groups[k + 1] && keys[1..][k] == keys[k + 1];
      GroupsPointwise(sentences, labels, keys[1..], groups[1..]);
      assert groups == [groups[0]] + groups[1..];
    }
  }

  // ---------------------------------------------------------------------
  // The grouping loop, as the dictionary-filling code does it

  /** Position of `lab` in `keys`, or `|keys|` when it is absent. */
  method Find(keys: seq<int>, lab: int) returns (pos: nat)
    ensures pos <= |keys|
    ensures pos < |keys| ==> keys[pos] == lab
    ensures pos == |keys| ==> lab !in keys
  {
    pos := 0;
    while pos < |keys| && keys[pos] != lab
      invariant pos <= |keys|
      invariant forall j :: 0 <= j < pos ==> keys[j] != lab
    {
      pos := pos + 1;
    }
  }

  /** The dictionary after the first `i` sentences: its keys in insertion
      order and, key for key, the sentences appended under it. */
  predicate GroupedUpTo(sentences: seq<string>, labels: seq<int>, i: nat,
                        keys: seq<int>, groups: seq<seq<string>>)
    requires |sentences| == |labels|
  {
    && i <= |labels|
    && keys == Dedup(labels[..i])
    && |groups| == |keys|
    && forall k :: 0 <= k < |keys| ==> groups[k] == Group(sentences[..i], labels[..i], keys[k])
  }

  /** The grouping loop of `cluster_chunks`: each sentence is appended to the
      list of its label, a label seen for the first time getting a new, empty
      list. The dictionary is represented by its key list and its value lists. */
  method GroupByLabel(sentences: seq<string>, labels: seq<int>)
    returns (keys: seq<int>, groups: seq<seq<string>>)
    requires |sentences| == |labels|
    ensures keys == Dedup(labels)
    ensures groups == Groups(sentences, labels, keys)
  {
    keys := [];
    groups := [];
    var i := 0;
    while i < |labels|
      invariant GroupedUpTo(sentences, labels, i, keys, groups)
    {
      var pos := Find(keys, labels[i]);
      if pos < |keys| {
        AppendToExisting(sentences, labels, i, keys, groups, pos);
        groups := groups[pos := groups[pos] + [sentences[i]]];
      } else {
        AppendNewKey(sentences, labels, i, keys, groups);
        keys := keys + [labels[i]];
        groups := groups + [[sentences[i]]];
      }
      i := i + 1;
    }
    assert labels[..i] == labels;
    assert sentences[..i] == sentences;
    GroupsPointwise(sentences, labels, keys, groups);
  }

  /** Every group but the label's own is unchanged by one more sentence. */
  lemma {:induction false} GroupsAfterStep(sentences: seq<string>, labels: seq<int>, i: nat, lab: int)
    requires |sentences| == |labels| && i < |labels|
    ensures labels[..i + 1] == labels[..i] + [labels[i]]
    ensures Group(sentences[..i + 1], labels[..i + 1], lab)
         == Group(sentences[..i], labels[..i], lab) + (if labels[i] == lab then [sentences[i]] else [])
  {
    assert labels[..i + 1] == labels[..i] + [labels[i]];
    assert sentences[..i + 1] == sentences[..i] + [sentences[i]];
    GroupSnoc(sentences[..i], labels[..i], sentences[i], labels[i], lab);
  }

  /** The `setdefault` step for a label already in the dictionary. */
  lemma {:induction false} AppendToExisting(sentences: seq<string>, labels: seq<int>, i: nat,
                         keys: seq<int>, groups: seq<seq<string>>, pos: nat)
    requires |sentences| == |labels| && i < |labels|
    requires GroupedUpTo(sentences, labels, i, keys, groups)
    requires pos < |keys| && keys[pos] == labels[i]
    ensures GroupedUpTo(sentences, labels, i + 1, keys, groups[pos := groups[pos] + [sentences[i]]])
  {
    GroupsAfterStep(sentences, labels, i, labels[i]);
    DedupMembers(labels[..i]);
    assert labels[i] in Dedup(labels[..i]);
    assert Dedup(labels[..i + 1]) == keys;
    var g := groups[pos := groups[pos] + [sentences[i]]];
    forall k | 0 <= k < |keys|
      ensures g[k] == Group(sentences[..i + 1], labels[..i + 1], keys[k])
    {
      GroupsAfterStep(sentences, labels, i, keys[k]);
      assert keys[k] == labels[i] <==> k == pos;
    }
  }

  /** The `setdefault` step for a label seen for the first time. */
  lemma {:induction false} AppendNewKey(sentences: seq<string>, labels: seq<int>, i: nat,
                     keys: seq<int>, groups: seq<seq<string>>)
    requires |sentences| == |labels| && i < |labels|
    requires GroupedUpTo(sentences, labels, i, keys, groups)
    requires labels[i] !in keys
    ensures GroupedUpTo(sentences, labels, i + 1, keys + [labels[i]], groups + [[sentences[i]]])
  {
    GroupsAfterStep(sentences, labels, i, labels[i]);
    DedupMembers(labels[..i]);
    assert Dedup(labels[..i + 1]) == keys + [labels[i]];
    assert labels[i] !in labels[..i];
    assert Group(sentences[..i], labels[..i], labels[i]) == [];
    var k2 := keys + [labels[i]];
    var g := groups + [[sentences[i]]];
    forall k | 0 <= k < |k2|
      ensures g[k] == Group(sentences[..i + 1], labels[..i + 1], k2[k])
    {
      GroupsAfterStep(sentences, labels, i, k2[k]);
    }
  }

  // ---------------------------------------------------------------------
  // Lemmas

  lemma {:induction false} GroupSnoc(sentences: seq<string>, labels: seq<int>, s: string, l: int, lab: int)
    requires |sentences| == |labels|
    ensures Group(sentences + [s], labels + [l], lab)
         == Group(sentences, labels, lab) + (if l == lab then [s] else [])
  {
    if labels == [] {
      assert sentences + [s] == [s];
      assert labels + [l] == [l];
    } else {
      var head := if labels[0] == lab then [sentences[0]] else [];
      assert (sentences + [s])[1..] == sentences[1..] + [s];
      assert (labels + [l])[1..] == labels[1..] + [l];
      assert Group(sentences + [s], labels + [l], lab)
          == head + Group(sentences[1..] + [s], labels[1..] + [l], lab);
      GroupSnoc(sentences[1..], labels[1..], s, l, lab);
      assert Group(sentences, labels, lab) == head + Group(sentences[1..], labels[1..], lab);
    }
  }

  lemma {:induction false} FirstIndexSnoc(labels: seq<int>, l: int, lab: int)
    requires lab in labels
    ensures FirstIndex(labels + [l], lab) == FirstIndex(labels, lab)
  {
    if labels[0] != lab {
      assert (labels + [l])[1..] == labels[1..] + [l];
      FirstIndexSnoc(labels[1..], l, lab);
    }
  }

  /** The dictionary's keys appear in strictly increasing order of first
      occurrence. */
  lemma {:induction false} KeysByFirstOccurrence(labels: seq<int>)
    ensures forall i, j :: 0 <= i < j < |Dedup(labels)| ==>
      FirstIndex(labels, Dedup(labels)[i]) < FirstIndex(labels, Dedup(labels)[j])
  {
    if labels != [] {
      var p := labels[..|labels| - 1];
      var l := labels[|labels| - 1];
      assert labels == p + [l];
      KeysByFirstOccurrence(p);
      var kp := Dedup(p);
      DedupMembers(p);
      forall k | k in kp
        ensures FirstIndex(labels, k) == FirstIndex(p, k)
      {
        FirstIndexSnoc(p, l, k);
      }
      if l !in kp {
        assert FirstIndex(labels, l) == |p|;
      }
    }
  }

  /** The `sorted(...)` call never reorders the dictionary's keys. */
  lemma {:induction false} ChunkOrderIsInsertionOrder(labels: seq<int>)
    ensures ChunkOrder(labels) == Dedup(labels)
  {
    KeysByFirstOccurrence(labels);
    Sorting.SortBySortedIdentity(Dedup(labels), FirstIndexKey(labels));
  }

  /** One chunk per distinct label. */
  lemma {:induction false} ChunkCount(sentences: seq<string>, labels: seq<int>)
    requires |sentences| >= 2 && |labels| == |sentences|
    ensures |ClusterChunks(sentences, labels)| == |set l | l in labels|
  {
    ChunkOrderIsInsertionOrder(labels);
    DedupCardinality(labels);
  }

  /** Chunk `i` is the space-join of the sentences of the `i`-th label to
      appear, which is what `GroupByLabel` files under that key. */
  lemma {:induction false} ChunksAreJoinedGroups(sentences: seq<string>, labels: seq<int>, i: nat)
    requires |sentences| >= 2 && |labels| == |sentences|
    requires i < |Dedup(labels)|
    ensures |ClusterChunks(sentences, labels)| == |Dedup(labels)|
    ensures ClusterChunks(sentences, labels)[i] == Join(Group(sentences, labels, Dedup(labels)[i]), " ")
  {
    ChunkOrderIsInsertionOrder(labels);
    JoinGroupsAt(sentences, labels, Dedup(labels), i);
  }

  /** The first chunk begins with the first sentence. */
  lemma {:induction false} FirstChunkLeads(sentences: seq<string>, labels: seq<int>)
    requires sentences != [] && (|sentences| >= 2 ==> |labels| == |sentences|)
    ensures ClusterChunks(sentences, labels) != []
    ensures sentences[0] <= ClusterChunks(sentences, labels)[0]
  {
    if |sentences| >= 2 {
      ChunkOrderIsInsertionOrder(labels);
      DedupHead(labels);
      var g := Group(sentences, labels, labels[0]);
      assert g[0] == sentences[0];
      JoinGroupsAt(sentences, labels, Dedup(labels), 0);
    }
  }

  lemma {:induction false} GatherSnoc(sentences: seq<string>, labels: seq<int>, s: string, l: int, keys: seq<int>)
    requires |sentences| == |labels|
    requires NoDup(keys)
    ensures multiset(Gather(sentences + [s], labels + [l], keys))
         == multiset(Gather(sentences, labels, keys)) + (if l in keys then multiset{s} else multiset{})
  {
    if keys != [] {
      var front := keys[..|keys| - 1];
      var last := keys[|keys| - 1];
      var ss, ls := sentences + [s], labels + [l];
      assert keys == front + [last];
      assert NoDup(front);
      assert multiset(Gather(ss, ls, keys))
          == multiset(Gather(ss, ls, front)) + multiset(Group(ss, ls, last));
      assert multiset(Gather(sentences, labels, keys))
          == multiset(Gather(sentences, labels, front)) + multiset(Group(sentences, labels, last));
      GatherSnoc(sentences, labels, s, l, front);
      GroupSnoc(sentences, labels, s, l, last);
      assert multiset(Group(ss, ls, last))
          == multiset(Group(sentences, labels, last)) + (if l == last then multiset{s} else multiset{});
      if l == last {
        assert l !in front;
      } else {
        assert l in keys <==> l in front;
      }
    }
  }

  /** Every sentence lands in exactly one chunk: the groups, taken together,
      are a permutation of the sentences. */
  lemma {:induction false} ChunksPartitionSentences(sentences: seq<string>, labels: seq<int>)
    requires |sentences| == |labels|
    ensures multiset(Gather(sentences, labels, Dedup(labels))) == multiset(sentences)
  {
    if labels != [] {
      var n := |labels| - 1;
      var sp, lp := sentences[..n], labels[..n];
      var s, l := sentences[n], labels[n];
      assert sentences == sp + [s];
      assert labels == lp + [l];
      ChunksPartitionSentences(sp, lp);
      var kp := Dedup(lp);
      DedupMembers(lp);
      GatherSnoc(sp, lp, s, l, kp);
      if l !in kp {
        assert Dedup(labels) == kp + [l];
        assert (kp + [l])[..|kp|] == kp;
        GroupSnoc(sp, lp, s, l, l);
        assert Group(sp, lp, l) == [];
      }
    }
  }

  lemma {:induction false} GroupOfConstant(sentences: seq<string>, labels: seq<int>, lab: int)
    requires |sentences| == |labels|
    requires forall i :: 0 <= i < |labels| ==> labels[i] == lab
    ensures Group(sentences, labels, lab) == sentences
  {
    if labels != [] {
      GroupOfConstant(sentences[1..], labels[1..], lab);
      assert sentences == [sentences[0]] + sentences[1..];
    }
  }

  /** All sentences in one cluster give one chunk: their space-join. */
  lemma {:induction false} OneClusterOneChunk(sentences: seq<string>, labels: seq<int>)
    requires |sentences| >= 2 && |labels| == |sentences|
    requires forall i :: 0 <= i < |labels| ==> labels[i] == labels[0]
    ensures ClusterChunks(sentences, labels) == [Join(sentences, " ")]
  {
    ChunkOrderIsInsertionOrder(labels);
    var keys := Dedup(labels);
    DedupMembers(labels);
    assert labels[0] in keys;
    assert keys == [labels[0]];
    GroupOfConstant(sentences, labels, labels[0]);
    JoinGroupsAt(sentences, labels, keys, 0);
  }

  lemma {:induction false} GroupOfDistinct(sentences: seq<string>, labels: seq<int>, i: int)
    requires |sentences| == |labels| && NoDup(labels) && 0 <= i < |labels|
    ensures Group(sentences, labels, labels[i]) == [sentences[i]]
  {
    assert NoDup(labels[1..]);
    if i == 0 {
      assert labels[0] !in labels[1..];
      assert Group(sentences[1..], labels[1..], labels[0]) == [];
    } else {
      GroupOfDistinct(sentences[1..], labels[1..], i - 1);
      assert labels[0] != labels[i];
    }
  }

  /** All sentences in different clusters: the chunks are the sentences. */
  lemma {:induction false} EachOwnClusterUnchanged(sentences: seq<string>, labels: seq<int>)
    requires |sentences| >= 2 && |labels| == |sentences|
    requires NoDup(labels)
    ensures ClusterChunks(sentences, labels) == sentences
  {
    ChunkOrderIsInsertionOrder(labels);
    DedupOfDistinct(labels);
    var r := ClusterChunks(sentences, labels);
    forall i | 0 <= i < |sentences|
      ensures r[i] == sentences[i]
    {
      GroupOfDistinct(sentences, labels, i);
      JoinGroupsAt(sentences, labels, labels, i);
    }
  }
}

=== FILE: common.dfy ===
/** Option and Result datatypes and sequence helpers shared by the whole model. */
module Common {

  datatype Option<+T> = None | Some(value: T)

  datatype Result<+T, +E> = Success(value: T) | Failure(error: E)

  /** No element occurs twice. */
  predicate NoDup<T(==)>(s: seq<T>) {
    forall i, j :: 0 <= i < j < |s| ==> s[i] != s[j]
  }

  /** The distinct elements of `s` in order of first occurrence: the key
      order of a dictionary (or a set built by appending) filled from `s`
      left to right. */
  function Dedup<T(==,!new)>(s: seq<T>): (r: seq<T>)
    ensures NoDup(r)
    ensures |r| <= |s|
  {
    if s == [] then []
    else
      var prev := Dedup(s[..|s| - 1]);
      assert s == s[..|s| - 1] + [s[|s| - 1]];
      if s[|s| - 1] in prev then prev else prev + [s[|s| - 1]]
  }

  /** The elements of `s` satisfying `p`, in their original order. */
  function Filter<T(==,!new)>(s: seq<T>, p: T -> bool): (r: seq<T>)
    ensures |r| <= |s|
    ensures forall i :: 0 <= i < |r| ==> p(r[i])
  {
    if s == [] then []
    else
      var rest := Filter(s[1..], p);
      assert forall i :: 1 <= i < |[s[0]] + rest| ==> ([s[0]] + rest)[i] == rest[i - 1];
      (if p(s[0]) then [s[0]] else []) + rest
  }

  /** `Filter` keeps exactly the elements that satisfy `p`. */
  lemma {:induction false} FilterMembers<T(!new)>(s: seq<T>, p: T -> bool)
    ensures forall x :: x in Filter(s, p) <==> x in s && p(x)
  {
    if s != [] {
      FilterMembers(s[1..], p);
      assert s == [s[0]] + s[1..];
    }
  }

  /** Concatenation of a sequence of strings. */
  function Concat(ss: seq<string>): string {
    if ss == [] then [] else ss[0] + Concat(ss[1..])
  }

  /** Python's `xs[i]` on a list: negative positions count from the end, and
      anything outside `-|xs| <= i < |xs|` raises `IndexError` (here `None`). */
  function PythonIndex<T>(xs: seq<T>, i: int): Option<T> {
    if 0 <= i < |xs| then Some(xs[i])
    else if -|xs| <= i < 0 then Some(xs[|xs| + i])
    else None
  }

  lemma {:induction false} NoDupCardinality<T>(s: seq<T>)
    requires NoDup(s)
    ensures |set x | x in s| == |s|
  {
    if s != [] {
      var p := s[..|s| - 1];
      assert s == p + [s[|s| - 1]];
      assert NoDup(p);
      NoDupCardinality(p);
      assert (set x | x in s) == (set x | x in p) + {s[|s| - 1]};
      assert s[|s| - 1] !in p;
    }
  }

  /** Deduplication drops no element: the keys are exactly the elements. */
  lemma {:induction false} DedupMembers<T(!new)>(s: seq<T>)
    ensures forall x :: x in Dedup(s) <==> x in s
  {
    if s != [] {
      var p := s[..|s| - 1];
      DedupMembers(p);
      assert s == p + [s[|s| - 1]];
    }
  }

  /** The number of distinct elements of `s` is the length of `Dedup(s)`. */
  lemma {:induction false} DedupCardinality<T(!new)>(s: seq<T>)
    ensures |Dedup(s)| == |set x | x in s|
  {
    NoDupCardinality(Dedup(s));
    DedupMembers(s);
    assert (set x | x in Dedup(s)) == (set x | x in s);
  }

  /** The first key of a non-empty sequence is its first element. */
  lemma {:induction false} DedupHead<T(!new)>(s: seq<T>)
    requires s != []
    ensures Dedup(s) != [] && Dedup(s)[0] == s[0]
  {
    if |s| > 1 {
      var p := s[..|s| - 1];
      DedupHead(p);
    }
  }

  /** Deduplicating a sequence without repetitions gives it back. */
  lemma {:induction false} DedupOfDistinct<T(!new)>(s: seq<T>)
    requires NoDup(s)
    ensures Dedup(s) == s
  {
    if s != [] {
      var p := s[..|s| - 1];
      assert NoDup(p);
      DedupOfDistinct(p);
      assert s[|s| - 1] !in p;
      assert s == p + [s[|s| - 1]];
    }
  }

  lemma {:induction false} FilterAppend<T(!new)>(a: seq<T>, b: seq<T>, p: T -> bool)
    ensures Filter(a + b, p) == Filter(a, p) + Filter(b, p)
  {
    if a != [] {
      assert (a + b)[1..] == a[1..] + b;
      FilterAppend(a[1..], b, p);
    } else {
      assert a + b == b;
    }
  }

  /** Filters that agree on the elements of `s` keep the same elements. */
  lemma {:induction false} FilterEquivalent<T(!new)>(s: seq<T>, p: T -> bool, q: T -> bool)
    requires forall i :: 0 <= i < |s| ==> p(s[i]) == q(s[i])
    ensures Filter(s, p) == Filter(s, q)
  {
    if s != [] {
      assert forall i :: 1 <= i < |s| ==> s[1..][i - 1] == s[i];
      FilterEquivalent(s[1..], p, q);
    }
  }

  /** A filter every element passes keeps the whole sequence. */
  lemma {:induction false} FilterAll<T(!new)>(s: seq<T>, p: T -> bool)
    requires forall i :: 0 <= i < |s| ==> p(s[i])
    ensures Filter(s, p) == s
  {
    if s != [] {
      assert forall i :: 1 <= i < |s| ==> s[1..][i - 1] == s[i];
      FilterAll(s[1..], p);
      assert s == [s[0]] + s[1..];
    }
  }

  lemma {:induction false} ConcatAppend(a: seq<string>, b: seq<string>)
    ensures Concat(a + b) == Concat(a) + Concat(b)
  {
    if a != [] {
      assert (a + b)[1..] == a[1..] + b;
      ConcatAppend(a[1..], b);
    } else {
      assert a + b == b;
    }
  }
}

=== FILE: faiss.dfy ===
/** What both versions of `build_faiss_index` share once they have chosen
    the documents to index: the empty-corpus error, the conversion of the
    embeddings into one float32 matrix of the index's width, and the
    row-for-row correspondence between index rows and documents. L2
    normalisation and inner-product scoring are FAISS's business and are
    folded into the opaque search function. */
module Faiss {
  import opened Common
  import opened Records

  /** Width of the all-MiniLM-L6-v2 embeddings the index is built for. */
  const EmbeddingDim: nat := 384

  /** The exceptions of the search code: the `ValueError` for no usable
      embedding, the failure of `np.array(...).astype("float32")` or of
      `index.add` on embeddings that are `None` or of the wrong width, and
      Python's `IndexError`. */
  datatype SearchError = NoValidEmbeddings | MalformedEmbeddings | IndexOutOfRange

  /** A built flat index: the rows added to it and, row for row, the
      documents they came from. */
  datatype Index = Index(rows: seq<seq<real>>, docs: seq<Document>)

  /** FAISS `index.search(query, k)` for one query vector: the first row of
      `distances` and of `indices`. */
  type Searcher = (seq<seq<real>>, seq<real>, int) -> (seq<real>, seq<int>)

  /** Every embedding is a vector of the index's width. */
  predicate Addable(kept: seq<Document>, dim: nat) {
    forall i :: 0 <= i < |kept| ==> kept[i].embedding.Present? && |kept[i].embedding.value| == dim
  }

  /** The tail of `build_faiss_index` once `embeddings` and `valid_docs` are
      collected from `kept`. */
  function Assemble(kept: seq<Document>, dim: nat): (r: Result<Index, SearchError>)
    ensures r == Failure(NoValidEmbeddings) <==> kept == []
    ensures r.Success? <==> kept != [] && Addable(kept, dim)
    ensures r.Success? ==>
      && r.value.docs == kept
      && |r.value.rows| == |kept|
      && forall i :: 0 <= i < |kept| ==>
           Present(r.value.rows[i]) == kept[i].embedding && |r.value.rows[i]| == dim
  {
    if kept == [] then Failure(NoValidEmbeddings)
    else if !Addable(kept, dim) then Failure(MalformedEmbeddings)
    else Success(Index(seq(|kept|, i requires 0 <= i < |kept| => kept[i].embedding.value), kept))
  }

  /** A result row of a flat index holding `n` vectors asked for `k`
      neighbours: the `min(k, n)` hits first, then `-1` padding. */
  predicate PaddedRow(distances: seq<real>, indices: seq<int>, k: nat, n: nat) {
    && |distances| == k
    && |indices| == k
    && (forall i :: 0 <= i < k && i < n ==> 0 <= indices[i] < n)
    && (forall i :: n <= i < k ==> indices[i] == -1)
  }

  /** The result loop of either `search_faiss` with the guard the endpoint's
      comment describes, a position within `0 <= idx < len(valid_docs)`:
      FAISS's `-1` padding is skipped instead of wrapping round. */
  function PickInRange(valid: seq<Document>, indices: seq<int>): (r: seq<Document>)
    ensures |r| <= |indices|
    ensures forall d :: d in r ==> d in valid
    ensures (forall i :: 0 <= i < |indices| ==> 0 <= indices[i] < |valid|) ==>
      |r| == |indices| && forall i :: 0 <= i < |indices| ==> r[i] == valid[indices[i]]
  {
    if indices == [] then []
    else
      var rest := PickInRange(valid, indices[1..]);
      assert forall i :: 1 <= i < |indices| ==> indices[1..][i - 1] == indices[i];
      if 0 <= indices[0] < |valid| then
        assert forall i :: 1 <= i < |[valid[indices[0]]] + rest| ==> ([valid[indices[0]]] + rest)[i] == rest[i - 1];
        [valid[indices[0]]] + rest
      else rest
  }

  /** Real positions followed by `-1` padding give exactly the documents at
      the real positions. */
  lemma {:induction false} PickInRangeSkipsPadding(valid: seq<Document>, indices: seq<int>, m: nat)
    requires m <= |indices|
    requires forall i :: 0 <= i < m ==> 0 <= indices[i] < |valid|
    requires forall i :: m <= i < |indices| ==> indices[i] == -1
    ensures |PickInRange(valid, indices)| == m
    ensures forall i :: 0 <= i < m ==> PickInRange(valid, indices)[i] == valid[indices[i]]
  {
    if indices != [] {
      if m == 0 {
        PickInRangeSkipsPadding(valid, indices[1..], 0);
      } else {
        PickInRangeSkipsPadding(valid, indices[1..], m - 1);
        var rest := PickInRange(valid, indices[1..]);
        assert PickInRange(valid, indices) == [valid[indices[0]]] + rest;
      }
    }
  }

  /** Positions outside `0 <= idx < len(valid_docs)` are skipped, and every
      other position, in row order, gives the document there. */
  lemma {:induction false} PickInRangeIsFiltered(valid: seq<Document>, indices: seq<int>)
    ensures var kept := Filter(indices, (i: int) => 0 <= i < |valid|);
      var r := PickInRange(valid, indices);
      |r| == |kept| && forall j :: 0 <= j < |kept| ==> r[j] == valid[kept[j]]
  {
    if indices != [] {
      PickInRangeIsFiltered(valid, indices[1..]);
      PickInRangeFilteredStep(valid, indices);
    }
  }

  /** One step of `PickInRangeIsFiltered`: the head position either
      contributes its document first or is skipped. */
  lemma {:induction false} PickInRangeFilteredStep(valid: seq<Document>, indices: seq<int>)
    requires indices != []
    requires var kept1 := Filter(indices[1..], (i: int) => 0 <= i < |valid|);
      var rest := PickInRange(valid, indices[1..]);
      |rest| == |kept1| && forall j :: 0 <= j < |kept1| ==> rest[j] == valid[kept1[j]]
    ensures var kept := Filter(indices, (i: int) => 0 <= i < |valid|);
      var r := PickInRange(valid, indices);
      |r| == |kept| && forall j :: 0 <= j < |kept| ==> r[j] == valid[kept[j]]
  {
    var p := (i: int) => 0 <= i < |valid|;
    var kept := Filter(indices, p);
    var kept1 := Filter(indices[1..], p);
    var r := PickInRange(valid, indices);
    var rest := PickInRange(valid, indices[1..]);
    if p(indices[0]) {
      assert kept == [indices[0]] + kept1;
      assert r == [valid[indices[0]]] + rest;
      forall j | 0 < j < |kept|
        ensures r[j] == valid[kept[j]]
      {
        assert r[j] == rest[j - 1] && kept[j] == kept1[j - 1];
      }
    } else {
      assert kept == [] + kept1;
    }
  }
}

=== FILE: faiss_search.dfy ===
/** The standalone search script faiss_search.py: its `build_faiss_index`
    skips a document whose `embedding` is missing or `None`, and its
    `search_faiss` maps every returned position straight back to a document
    with no range check at all. */
module FaissSearch {
  import opened Common
  import opened Records
  import opened Faiss

  /** `doc.get("embedding", None) is not None`. */
  predicate HasEmbedding(d: Document) {
    d.embedding.Present?
  }

  /** `build_faiss_index(documents, embedding_dim)`. */
  function BuildIndex(documents: seq<Document>, dim: nat): (r: Result<Index, SearchError>)
    ensures r == Failure(NoValidEmbeddings) <==>
      forall i :: 0 <= i < |documents| ==> !documents[i].embedding.Present?
    ensures r.Success? <==>
      && (exists i :: 0 <= i < |documents| && documents[i].embedding.Present?)
      && forall i :: 0 <= i < |documents| && documents[i].embedding.Present? ==>
           |documents[i].embedding.value| == dim
    ensures r.Success? ==>
      && r.value.docs == Filter(documents, HasEmbedding)
      && |r.value.rows| == |r.value.docs|
      && forall i :: 0 <= i < |r.value.rows| ==> Present(r.value.rows[i]) == r.value.docs[i].embedding
  {
    var kept := Filter(documents, HasEmbedding);
    FilterMembers(documents, HasEmbedding);
    assert kept == [] <==> forall i :: 0 <= i < |documents| ==> !documents[i].embedding.Present? by {
      if kept != [] {
        assert kept[0] in documents;
      }
      if exists i :: 0 <= i < |documents| && documents[i].embedding.Present? {
        var i :| 0 <= i < |documents| && documents[i].embedding.Present?;
        assert documents[i] in kept;
      }
    }
    assert Addable(kept, dim) <==>
      forall i :: 0 <= i < |documents| && documents[i].embedding.Present? ==>
        |documents[i].embedding.value| == dim
    by {
      forall i | 0 <= i < |documents| && documents[i].embedding.Present?
        ensures documents[i] in kept
      {
      }
      forall j | 0 <= j < |kept|
        ensures kept[j] in documents && kept[j].embedding.Present?
      {
      }
    }
    Assemble(kept, dim)
  }

  /** The loop of `search_faiss`: `results.append(documents[idx])` for every
      `idx`, so a `-1` counts from the end and anything outside
      `-len(documents) <= idx < len(documents)` raises `IndexError`. */
  function PickAll(documents: seq<Document>, indices: seq<int>): (r: Result<seq<Document>, SearchError>)
    ensures r.Failure? <==> exists i :: 0 <= i < |indices| && PythonIndex(documents, indices[i]).None?
    ensures r.Success? ==>
      |r.value| == |indices| &&
      forall i :: 0 <= i < |indices| ==> Some(r.value[i]) == PythonIndex(documents, indices[i])
  {
    if indices == [] then Success([])
    else
      var rest := PickAll(documents, indices[1..]);
      assert forall i :: 1 <= i < |indices| ==> indices[1..][i - 1] == indices[i];
      match PythonIndex(documents, indices[0])
      case None => Failure(IndexOutOfRange)
      case Some(d) =>
        if rest.Failure? then rest
        else
          assert forall i :: 1 <= i < |[d] + rest.value| ==> ([d] + rest.value)[i] == rest.value[i - 1];
          Success([d] + rest.value)
  }

  /** `search_faiss(query, model, faiss_index, documents, top_k)`: the scores
      are the whole first row of distances, padding included. */
  function SearchFaiss(query: string, embed: string -> seq<real>, index: Index,
                       documents: seq<Document>, topK: int, search: Searcher)
    : (r: Result<(seq<Document>, seq<real>), SearchError>)
    ensures var (distances, indices) := search(index.rows, embed(query), topK);
      && (r.Failure? <==> exists i :: 0 <= i < |indices| && PythonIndex(documents, indices[i]).None?)
      && (r.Success? ==>
           && r.value.1 == distances
           && |r.value.0| == |indices|
           && forall i :: 0 <= i < |indices| ==> Some(r.value.0[i]) == PythonIndex(documents, indices[i]))
  {
    var (distances, indices) := search(index.rows, embed(query), topK);
    match PickAll(documents, indices)
    case Failure(e) => Failure(e)
    case Success(results) => Success((results, distances))
  }

  /** `search_faiss` with the range check the endpoint's copy describes:
      a position outside `0 <= idx < len(documents)`, FAISS's `-1` padding
      among them, is skipped, so the search never fails. */
  function SearchFaissInRange(query: string, embed: string -> seq<real>, index: Index,
                              documents: seq<Document>, topK: int, search: Searcher)
    : (r: (seq<Document>, seq<real>))
    ensures var (distances, indices) := search(index.rows, embed(query), topK);
      && r.1 == distances
      && |r.0| <= |indices|
      && (forall d :: d in r.0 ==> d in documents)
  {
    var (distances, indices) := search(index.rows, embed(query), topK);
    (PickInRange(documents, indices), distances)
  }

  // ---------------------------------------------------------------------
  // Lemmas

  /** Searching the index built over `documents` with its own `valid_docs`
      and no more neighbours than indexed documents returns exactly the
      documents FAISS ranked, paired with their scores. */
  lemma {:induction false} SearchReturnsRankedDocuments(query: string, embed: string -> seq<real>,
                                     documents: seq<Document>, topK: nat, search: Searcher)
    requires BuildIndex(documents, EmbeddingDim).Success?
    requires var index := BuildIndex(documents, EmbeddingDim).value;
      var (distances, indices) := search(index.rows, embed(query), topK);
      topK <= |index.docs| && PaddedRow(distances, indices, topK, |index.docs|)
    ensures var index := BuildIndex(documents, EmbeddingDim).value;
      var (distances, indices) := search(index.rows, embed(query), topK);
      var r := SearchFaiss(query, embed, index, index.docs, topK, search);
      && r == Success((seq(topK, i requires 0 <= i < topK => index.docs[indices[i]]), distances))
  {
    var index := BuildIndex(documents, EmbeddingDim).value;
    var (distances, indices) := search(index.rows, embed(query), topK);
    var r := SearchFaiss(query, embed, index, index.docs, topK, search);
    assert r.Success?;
    assert r.value.0 == seq(topK, i requires 0 <= i < topK => index.docs[indices[i]]) by {
      forall i | 0 <= i < topK
        ensures r.value.0[i] == index.docs[indices[i]]
      {
        assert Some(r.value.0[i]) == PythonIndex(index.docs, indices[i]);
      }
    }
  }

  /** Asking for more neighbours than there are documents does not fail:
      every `-1` pad silently becomes the last document, and its `-FLT_MAX`
      score is reported beside it. */
  lemma {:induction false} PaddingBecomesLastDocument(query: string, embed: string -> seq<real>, index: Index,
                                   documents: seq<Document>, topK: nat, search: Searcher)
    requires documents != []
    requires var (distances, indices) := search(index.rows, embed(query), topK);
      PaddedRow(distances, indices, topK, |documents|)
    ensures var (distances, indices) := search(index.rows, embed(query), topK);
      var r := SearchFaiss(query, embed, index, documents, topK, search);
      && r.Success?
      && |r.value.0| == topK
      && r.value.1 == distances
      && forall i :: |documents| <= i < topK ==> r.value.0[i] == documents[|documents| - 1]
  {
    var (distances, indices) := search(index.rows, embed(query), topK);
    var r := SearchFaiss(query, embed, index, documents, topK, search);
    forall i | |documents| <= i < topK
      ensures r.value.0[i] == documents[|documents| - 1]
    {
      assert Some(r.value.0[i]) == PythonIndex(documents, indices[i]);
    }
  }

  /** With the range check, a padded FAISS row gives exactly the `min(top_k, n)`
      ranked documents, each once, beside the distance row. */
  lemma {:induction false} InRangeReturnsRealHits(query: string, embed: string -> seq<real>, index: Index,
                                                  documents: seq<Document>, topK: nat, search: Searcher)
    requires var (distances, indices) := search(index.rows, embed(query), topK);
      PaddedRow(distances, indices, topK, |documents|)
    ensures var (distances, indices) := search(index.rows, embed(query), topK);
      var n := if topK < |documents| then topK else |documents|;
      SearchFaissInRange(query, embed, index, documents, topK, search)
        == (seq(n, i requires 0 <= i < n => documents[indices[i]]), distances)
  {
    var (distances, indices) := search(index.rows, embed(query), topK);
    var n := if topK < |documents| then topK else |documents|;
    PickInRangeSkipsPadding(documents, indices, n);
    var picked := PickInRange(documents, indices);
    assert SearchFaissInRange(query, embed, index, documents, topK, search) == (picked, distances);
    assert picked == seq(n, i requires 0 <= i < n => documents[indices[i]]);
  }

  /** Without padding, the range check changes nothing: the search as
      written and the corrected one give the same answer. */
  lemma {:induction false} InRangeAgreesWithoutPadding(query: string, embed: string -> seq<real>, index: Index,
                                                       documents: seq<Document>, topK: nat, search: Searcher)
    requires topK <= |documents|
    requires var (distances, indices) := search(index.rows, embed(query), topK);
      PaddedRow(distances, indices, topK, |documents|)
    ensures SearchFaiss(query, embed, index, documents, topK, search)
      == Success(SearchFaissInRange(query, embed, index, documents, topK, search))
  {
    var (distances, indices) := search(index.rows, embed(query), topK);
    var r := SearchFaiss(query, embed, index, documents, topK, search);
    var c := SearchFaissInRange(query, embed, index, documents, topK, search);
    assert r.Success?;
    assert r.value.0 == c.0 by {
      forall i | 0 <= i < topK
        ensures r.value.0[i] == c.0[i]
      {
        assert Some(r.value.0[i]) == PythonIndex(documents, indices[i]);
      }
    }
  }
}

=== FILE: pipeline.dfy ===
/** `run_pipeline` (app/pipeline.py): normalise, segment, cluster into chunks,
    summarise, package and embed. The five models are opaque functions held
    in one context value, as the module-level cached models are in the source. */
module Pipeline {
  import opened Common
  import opened Text
  import opened Sentences
  import opened Chunking
  import opened Records

  /** The cached models: spaCy's sentence segmenter (the spans of the text it
      is given), agglomerative clustering of the sentence embeddings (one
      label per sentence, for a distance threshold), BART summarization,
      BERT entity recognition and the sentence-transformer embedding. */
  datatype Models = Models(
    segment: string -> seq<string>,
    cluster: (seq<string>, real) -> seq<int>,
    summarize: string -> string,
    ner: string -> seq<Entity>,
    embed: string -> seq<real>)

  /** `spacy_sentence_tokenize(preprocess_text(raw))`. */
  function SentencesOf(models: Models, raw: string): seq<string> {
    SentenceTokenize(models.segment(Normalize(raw)))
  }

  /** The clustering model gives one label per sentence whenever it is
      asked, which `cluster_chunks` only does for two or more sentences. */
  ghost predicate LabelsFit(models: Models) {
    forall ss: seq<string> ::
      |ss| >= 2 ==> |models.cluster(ss, DefaultDistanceThreshold)| == |ss|
  }

  /** `cluster_chunks(sentences)` with the default threshold. */
  function ChunksOf(models: Models, raw: string): seq<string>
    requires LabelsFit(models)
  {
    var sentences := SentencesOf(models, raw);
    ClusterChunks(sentences, models.cluster(sentences, DefaultDistanceThreshold))
  }

  /** The record `run_pipeline` stores for `chunk`, the `i`-th chunk. */
  predicate RecordOf(d: Document, chunk: string, i: nat, sourceId: string,
                     models: Models, now: string, uuid: nat -> string) {
    && d.id == Present(uuid(i))
    && d.chunkText == Present(chunk)
    && d.summary == Present(if WordCount(chunk) < ShortChunkWords then chunk else models.summarize(chunk))
    && d.timestamp == Present(now + "Z")
    && d.speaker == Present(DefaultSource)
    && d.tags == Present(ExtractTags(models.ner(chunk)))
    && d.sourceAudioId == Present(sourceId)
    && d.embedding == Present(models.embed(chunk))
  }

  /** `add_embeddings(package_for_db(summarize_chunks(chunks), source_id))`. */
  function StoreChunks(chunks: seq<string>, sourceId: string, models: Models,
                       now: string, uuid: nat -> string): (r: seq<Document>)
    ensures |r| == |chunks|
    ensures forall i :: 0 <= i < |r| ==> RecordOf(r[i], chunks[i], i, sourceId, models, now, uuid)
  {
    var summaries := SummarizeChunks(chunks, models.summarize);
    var packaged := PackageForDb(summaries, sourceId, DefaultSource, now, uuid, models.ner);
    AddEmbeddings(packaged, models.embed)
  }

  /** `run_pipeline(raw, source_id)`; `now` and `uuid` stand for the clock and
      the uuid generator. */
  function RunPipeline(raw: string, sourceId: string, models: Models,
                       now: string, uuid: nat -> string): (r: seq<Document>)
    requires LabelsFit(models)
    ensures |r| == |ChunksOf(models, raw)|
    ensures forall i :: 0 <= i < |r| ==> RecordOf(r[i], ChunksOf(models, raw)[i], i, sourceId, models, now, uuid)
  {
    StoreChunks(ChunksOf(models, raw), sourceId, models, now, uuid)
  }

  // ---------------------------------------------------------------------
  // Lemmas

  /** Empty or whitespace-only input yields no record, given that the
      segmenter finds no visible content in the empty text. */
  lemma {:induction false} BlankInputNoRecords(raw: string, sourceId: string, models: Models,
                            now: string, uuid: nat -> string)
    requires forall i :: 0 <= i < |raw| ==> IsSpace(raw[i])
    requires NonSpace(Concat(models.segment([]))) == []
    requires LabelsFit(models)
    ensures RunPipeline(raw, sourceId, models, now, uuid) == []
  {
    NormalizeEmptyIffBlank(raw);
    SentencesCoverText([], models.segment([]));
  }

  /** The sentences hold all the non-whitespace content of the raw text, in
      order, when the segmenter's spans carry the normalised text's
      non-whitespace content in order. */
  lemma {:induction false} SentencesKeepContent(raw: string, models: Models)
    requires NonSpace(Concat(models.segment(Normalize(raw)))) == NonSpace(Normalize(raw))
    ensures NonSpace(Concat(SentencesOf(models, raw))) == NonSpace(raw)
  {
    SentencesCoverText(Normalize(raw), models.segment(Normalize(raw)));
    NormalizeKeepsContent(raw);
  }

  /** Ids are unique within a run when the id oracle does not repeat. */
  lemma {:induction false} RecordIdsDistinct(raw: string, sourceId: string, models: Models,
                          now: string, uuid: nat -> string)
    requires LabelsFit(models)
    requires forall i, j :: 0 <= i < j < |ChunksOf(models, raw)| ==> uuid(i) != uuid(j)
    ensures var r := RunPipeline(raw, sourceId, models, now, uuid);
      forall i, j :: 0 <= i < j < |r| ==> r[i].id != r[j].id
  {
    var r := RunPipeline(raw, sourceId, models, now, uuid);
    forall i, j | 0 <= i < j < |r|
      ensures r[i].id != r[j].id
    {
      assert RecordOf(r[i], ChunksOf(models, raw)[i], i, sourceId, models, now, uuid);
      assert RecordOf(r[j], ChunksOf(models, raw)[j], j, sourceId, models, now, uuid);
    }
  }

  /** Storing the same chunks twice gives records that differ only in id and
      timestamp. */
  lemma {:induction false} StoreChunksTwice(chunks: seq<string>, sourceId: string, models: Models,
                         now1: string, uuid1: nat -> string,
                         now2: string, uuid2: nat -> string)
    ensures var r1 := StoreChunks(chunks, sourceId, models, now1, uuid1);
      var r2 := StoreChunks(chunks, sourceId, models, now2, uuid2);
      forall i :: 0 <= i < |r1| ==> r1[i].(id := r2[i].id, timestamp := r2[i].timestamp) == r2[i]
  {
    var r1 := StoreChunks(chunks, sourceId, models, now1, uuid1);
    var r2 := StoreChunks(chunks, sourceId, models, now2, uuid2);
    forall i | 0 <= i < |r1|
      ensures r1[i].(id := r2[i].id, timestamp := r2[i].timestamp) == r2[i]
    {
      assert RecordOf(r1[i], chunks[i], i, sourceId, models, now1, uuid1);
      assert RecordOf(r2[i], chunks[i], i, sourceId, models, now2, uuid2);
    }
  }

  /** Ingesting the same text twice gives records that differ only in id and
      timestamp; with two id oracles that never agree, the ids differ. */
  lemma {:induction false} RepeatedIngestion(raw: string, sourceId: string, models: Models,
                          now1: string, uuid1: nat -> string,
                          now2: string, uuid2: nat -> string)
    requires LabelsFit(models)
    requires forall i, j :: 0 <= i < |ChunksOf(models, raw)| && 0 <= j < |ChunksOf(models, raw)| ==> uuid1(i) != uuid2(j)
    ensures var r1 := RunPipeline(raw, sourceId, models, now1, uuid1);
      var r2 := RunPipeline(raw, sourceId, models, now2, uuid2);
      && |r1| == |r2|
      && (forall i :: 0 <= i < |r1| ==> r1[i].(id := r2[i].id, timestamp := r2[i].timestamp) == r2[i])
      && (forall i, j :: 0 <= i < |r1| && 0 <= j < |r2| ==> r1[i].id != r2[j].id)
  {
    var chunks := ChunksOf(models, raw);
    var r1 := RunPipeline(raw, sourceId, models, now1, uuid1);
    var r2 := RunPipeline(raw, sourceId, models, now2, uuid2);
    StoreChunksTwice(chunks, sourceId, models, now1, uuid1, now2, uuid2);
    forall i, j | 0 <= i < |r1| && 0 <= j < |r2|
      ensures r1[i].id != r2[j].id
    {
      assert RecordOf(r1[i], chunks[i], i, sourceId, models, now1, uuid1);
      assert RecordOf(r2[j], chunks[j], j, sourceId, models, now2, uuid2);
    }
  }
}

=== FILE: records.dfy ===
/** The per-chunk steps of app/pipeline.py and the records they build:
    `summarize_chunks`, `extract_tags`, `package_for_db` and `add_embeddings`.
    The summarization, entity-recognition and embedding models are opaque
    functions passed in; the uuid generator is a function from the position
    of the call to an id, and the clock is one timestamp string. */
module Records {
  import opened Common
  import opened Text

  /** A dictionary entry: the key is missing, holds `None`, or holds a value. */
  datatype Field<+T> = Absent | Null | Present(value: T)

  /** `d.get(key)`: `None` both for a missing key and for a stored `None`. */
  function Get<T>(f: Field<T>): Option<T> {
    match f
    case Present(v) => Some(v)
    case _ => None
  }

  /** A knowledge unit as a dictionary, as the pipeline builds it and as the
      document store hands it back. */
  datatype Document = Document(
    id: Field<string>,
    chunkText: Field<string>,
    summary: Field<string>,
    timestamp: Field<string>,
    speaker: Field<string>,
    tags: Field<seq<string>>,
    sourceAudioId: Field<string>,
    embedding: Field<seq<real>>)

  /** One aggregated entity as the NER pipeline reports it. */
  datatype Entity = Entity(entityGroup: Field<string>, entity: Field<string>)

  /** `{"chunk_text": ..., "summary": ...}` as `summarize_chunks` builds it. */
  datatype Summary = Summary(chunkText: string, summary: string)

  /** Chunks with fewer words than this are kept verbatim as their summary. */
  const ShortChunkWords: nat := 30

  /** `package_for_db`'s default `source`. */
  const DefaultSource: string := "Jira"

  // ---------------------------------------------------------------------
  // extract_tags

  /** The tag of one entity: its `entity_group` label when that is a
      non-empty string, otherwise its `entity` label, lowered; no tag when
      neither is a non-empty string. */
  function TagOf(e: Entity): (r: Option<string>)
    ensures r.Some? ==> r.value != [] && Lower(r.value) == r.value
    ensures e.entityGroup.Present? && e.entityGroup.value != [] ==> r == Some(Lower(e.entityGroup.value))
    ensures (e.entityGroup.Present? ==> e.entityGroup.value == []) && e.entity.Present? && e.entity.value != []
            ==> r == Some(Lower(e.entity.value))
    ensures r.None? <==> (e.entityGroup.Present? ==> e.entityGroup.value == []) && (e.entity.Present? ==> e.entity.value == [])
  {
    var tag :=
      match Get(e.entityGroup)
      case Some(g) => if g != [] then Some(g) else Get(e.entity)
      case None => Get(e.entity);
    match tag
    case Some(t) =>
      if t != [] then LowerIdempotent(t); Some(Lower(t)) else None
    case None => None
  }

  /** The `tags` list before `set(...)`: one entry per entity that has a label. */
  function RawTags(entities: seq<Entity>): (r: seq<string>)
    ensures |r| <= |entities|
    ensures forall i :: 0 <= i < |r| ==> r[i] != [] && Lower(r[i]) == r[i]
  {
    if entities == [] then []
    else
      var rest := RawTags(entities[1..]);
      match TagOf(entities[0])
      case Some(t) =>
        assert forall i :: 1 <= i < |[t] + rest| ==> ([t] + rest)[i] == rest[i - 1];
        [t] + rest
      case None => rest
  }

  /** `extract_tags(text)` given the entities the NER model finds in `text`.
      Python's `list(set(tags))` has no defined order; the model keeps first
      occurrences, and every contract below is about membership only. */
  function ExtractTags(entities: seq<Entity>): (r: seq<string>)
    ensures NoDup(r)
    ensures forall i :: 0 <= i < |r| ==> r[i] != [] && Lower(r[i]) == r[i]
  {
    var raw := RawTags(entities);
    var r := Dedup(raw);
    DedupMembers(raw);
    assert forall i :: 0 <= i < |r| ==> r[i] in raw;
    r
  }

  // ---------------------------------------------------------------------
  // summarize_chunks

  /** One iteration of `summarize_chunks`; `summarize` is the BART call
      (`max_length=60, min_length=15, do_sample=False`). */
  function SummarizeChunk(chunk: string, summarize: string -> string): Summary {
    if WordCount(chunk) < ShortChunkWords then Summary(chunk, chunk)
    else Summary(chunk, summarize(chunk))
  }

  /** `summarize_chunks(chunks)`. */
  function SummarizeChunks(chunks: seq<string>, summarize: string -> string): (r: seq<Summary>)
    ensures |r| == |chunks|
    ensures forall i :: 0 <= i < |r| ==> r[i].chunkText == chunks[i]
    ensures forall i :: 0 <= i < |r| && WordCount(chunks[i]) < ShortChunkWords ==> r[i].summary == chunks[i]
    ensures forall i :: 0 <= i < |r| && WordCount(chunks[i]) >= ShortChunkWords ==> r[i].summary == summarize(chunks[i])
  {
    seq(|chunks|, i requires 0 <= i < |chunks| => SummarizeChunk(chunks[i], summarize))
  }

  // ---------------------------------------------------------------------
  // package_for_db and add_embeddings

  /** The record `package_for_db` builds for its `i`-th input. */
  function Package(item: Summary, id: string, timestamp: string, source: string,
                   sourceId: string, ner: string -> seq<Entity>): Document {
    Document(
      id := Present(id),
      chunkText := Present(item.chunkText),
      summary := Present(item.summary),
      timestamp := Present(timestamp),
      speaker := Present(source),
      tags := Present(ExtractTags(ner(item.chunkText))),
      sourceAudioId := Present(sourceId),
      embedding := Absent)
  }

  /** `package_for_db(summaries, source_id, source)`: `now` is
      `datetime.utcnow().isoformat()`, read once, and `uuid(i)` is the id the
      `i`-th call of `uuid.uuid4()` yields. */
  function PackageForDb(summaries: seq<Summary>, sourceId: string, source: string,
                        now: string, uuid: nat -> string,
                        ner: string -> seq<Entity>): (r: seq<Document>)
    ensures |r| == |summaries|
    ensures forall i :: 0 <= i < |r| ==>
      && r[i].id == Present(uuid(i))
      && r[i].chunkText == Present(summaries[i].chunkText)
      && r[i].summary == Present(summaries[i].summary)
      && r[i].speaker == Present(source)
      && r[i].sourceAudioId == Present(sourceId)
      && r[i].tags == Present(ExtractTags(ner(summaries[i].chunkText)))
      && r[i].embedding == Absent
    ensures forall i :: 0 <= i < |r| ==>
      r[i].timestamp.Present? && r[i].timestamp.value != [] && r[i].timestamp.value[|r[i].timestamp.value| - 1] == 'Z'
    ensures forall i, j :: 0 <= i < |r| && 0 <= j < |r| ==> r[i].timestamp == r[j].timestamp
  {
    var timestamp := now + "Z";
    seq(|summaries|, i requires 0 <= i < |summaries| =>
      Package(summaries[i], uuid(i), timestamp, source, sourceId, ner))
  }

  /** `add_embeddings(data)`: every record gets `embedding` set from its
      `chunk_text`. `item["chunk_text"]` must exist, so the source needs it. */
  function AddEmbeddings(data: seq<Document>, embed: string -> seq<real>): (r: seq<Document>)
    requires forall i :: 0 <= i < |data| ==> data[i].chunkText.Present?
    ensures |r| == |data|
    ensures forall i :: 0 <= i < |r| ==> r[i].embedding == Present(embed(data[i].chunkText.value))
    ensures forall i :: 0 <= i < |r| ==> r[i].(embedding := data[i].embedding) == data[i]
  {
    seq(|data|, i requires 0 <= i < |data| =>
      data[i].(embedding := Present(embed(data[i].chunkText.value))))
  }

  // ---------------------------------------------------------------------
  // Lemmas

  /** The tag list holds exactly the tags of the entities that have one. */
  lemma {:induction false} RawTagsMembers(entities: seq<Entity>)
    ensures forall t :: t in RawTags(entities) <==>
      exists i :: 0 <= i < |entities| && TagOf(entities[i]) == Some(t)
  {
    if entities != [] {
      RawTagsMembers(entities[1..]);
      assert forall i :: 1 <= i < |entities| ==> entities[1..][i - 1] == entities[i];
    }
  }

  /** A tag is extracted exactly when some entity yields it. */
  lemma {:induction false} ExtractTagsMembers(entities: seq<Entity>)
    ensures forall t :: t in ExtractTags(entities) <==>
      exists i :: 0 <= i < |entities| && TagOf(entities[i]) == Some(t)
  {
    RawTagsMembers(entities);
    DedupMembers(RawTags(entities));
  }

  /** Labels differing only in case collapse to one tag, whichever field
      carries them. */
  lemma {:induction false} CaseInsensitiveTags()
    ensures ExtractTags([Entity(Present("ORG"), Absent), Entity(Absent, Present("org"))]) == ["org"]
  {
    var es := [Entity(Present("ORG"), Absent), Entity(Absent, Present("org"))];
    assert Lower("ORG") == "org";
    assert Lower("org") == "org";
    assert TagOf(es[0]) == Some("org");
    assert TagOf(es[1]) == Some("org");
    assert RawTags(es[1..]) == ["org"];
    assert RawTags(es) == ["org", "org"];
    assert ["org", "org"][..1] == ["org"];
    assert Dedup(["org"]) == ["org"];
  }
}

=== FILE: search_endpoint.dfy ===
/** app/endpoints/search.py: the index is rebuilt from the stored documents
    on every query, the hits are mapped back to documents behind a range
    guard, and the endpoint pairs them with their scores, projects a few
    fields and sorts by score, turning any exception into an HTTP 500. */
module SearchEndpoint {
  import opened Common
  import opened Records
  import opened Faiss
  import Sorting

  /** `"embedding" in doc`: the key is there, even if it holds `None`. */
  predicate HasEmbeddingKey(d: Document) {
    !d.embedding.Absent?
  }

  /** `build_faiss_index(documents, embedding_dim)`. */
  function BuildIndex(documents: seq<Document>, dim: nat): (r: Result<Index, SearchError>)
    ensures r == Failure(NoValidEmbeddings) <==>
      forall i :: 0 <= i < |documents| ==> documents[i].embedding.Absent?
    ensures (exists i :: 0 <= i < |documents| && documents[i].embedding.Null?) ==>
      r == Failure(MalformedEmbeddings)
    ensures r.Success? ==>
      && (forall d :: d in r.value.docs <==> d in documents && HasEmbeddingKey(d))
      && r.value.docs == Filter(documents, HasEmbeddingKey)
      && |r.value.rows| == |r.value.docs|
      && forall i :: 0 <= i < |r.value.rows| ==> Present(r.value.rows[i]) == r.value.docs[i].embedding
  {
    var kept := Filter(documents, HasEmbeddingKey);
    FilterMembers(documents, HasEmbeddingKey);
    assert kept == [] <==> forall i :: 0 <= i < |documents| ==> documents[i].embedding.Absent? by {
      if kept != [] {
        assert kept[0] in documents;
      }
      if exists i :: 0 <= i < |documents| && !documents[i].embedding.Absent? {
        var i :| 0 <= i < |documents| && !documents[i].embedding.Absent?;
        assert documents[i] in kept;
      }
    }
    assert (exists i :: 0 <= i < |documents| && documents[i].embedding.Null?) ==>
      exists d :: d in kept && d.embedding.Null? by {
      if exists i :: 0 <= i < |documents| && documents[i].embedding.Null? {
        var i :| 0 <= i < |documents| && documents[i].embedding.Null?;
        assert documents[i] in kept;
      }
    }
    Assemble(kept, dim)
  }

  /** The loop of `search_faiss` as written: a position is kept when it is
      below the number of indexed documents, and the document there is taken
      by Python indexing. A negative `idx` passes the guard and counts from the end; one below
      `-len(valid_docs)` raises `IndexError`. */
  function PickGuardedAsWritten(valid: seq<Document>, indices: seq<int>): (r: Result<seq<Document>, SearchError>)
    ensures r.Failure? <==> exists i :: 0 <= i < |indices| && indices[i] < -|valid|
    ensures r.Failure? ==> r.error == IndexOutOfRange
    ensures r.Success? ==> |r.value| <= |indices| && forall d :: d in r.value ==> d in valid
    ensures r.Success? && (forall i :: 0 <= i < |indices| ==> indices[i] < |valid|) ==>
      |r.value| == |indices| &&
      forall i :: 0 <= i < |indices| ==> Some(r.value[i]) == PythonIndex(valid, indices[i])
  {
    if indices == [] then Success([])
    else
      var idx := indices[0];
      var rest := PickGuardedAsWritten(valid, indices[1..]);
      assert forall i :: 1 <= i < |indices| ==> indices[1..][i - 1] == indices[i];
      if idx >= |valid| then rest
      else if idx < -|valid| then Failure(IndexOutOfRange)
      else if rest.Failure? then rest
      else
        var d := if idx >= 0 then valid[idx] else valid[|valid| + idx];
        assert forall i :: 1 <= i < |[d] + rest.value| ==> ([d] + rest.value)[i] == rest.value[i - 1];
        Success([d] + rest.value)
  }

  /** `search_faiss(query, top_k)` as written, over the stored `documents`,
      with the embedding model and FAISS's search passed in. */
  function SearchFaissAsWritten(query: string, topK: int, documents: seq<Document>,
                                embed: string -> seq<real>, search: Searcher)
    : (r: Result<(seq<Document>, seq<real>), SearchError>)
    ensures documents == [] ==> r == Success(([], []))
    ensures documents != [] ==>
      match BuildIndex(documents, EmbeddingDim)
      case Failure(e) => r == Failure(e)
      case Success(index) =>
        var (distances, indices) := search(index.rows, embed(query), topK);
        && (r.Failure? <==> exists i :: 0 <= i < |indices| && indices[i] < -|index.docs|)
        && (r.Failure? ==> r.error == IndexOutOfRange)
        && (r.Success? ==>
             && r.value.1 == distances
             && |r.value.0| <= |indices|
             && (|distances| == |indices| ==> |r.value.0| <= |r.value.1|)
             && (forall d :: d in r.value.0 ==> d in index.docs))
  {
    if documents == [] then Success(([], []))
    else
      match BuildIndex(documents, EmbeddingDim)
      case Failure(e) => Failure(e)
      case Success(index) =>
        var (distances, indices) := search(index.rows, embed(query), topK);
        match PickGuardedAsWritten(index.docs, indices)
        case Failure(e) => Failure(e)
        case Success(results) => Success((results, distances))
  }

  /** `search_faiss` with the corrected guard; `Endpoint` below uses it. */
  function SearchFaiss(query: string, topK: int, documents: seq<Document>,
                       embed: string -> seq<real>, search: Searcher)
    : (r: Result<(seq<Document>, seq<real>), SearchError>)
    ensures documents == [] ==> r == Success(([], []))
    ensures documents != [] ==>
      match BuildIndex(documents, EmbeddingDim)
      case Failure(e) => r == Failure(e)
      case Success(index) =>
        var (distances, indices) := search(index.rows, embed(query), topK);
        && r.Success?
        && r.value.1 == distances
        && |r.value.0| <= |indices|
        && (|distances| == |indices| ==> |r.value.0| <= |r.value.1|)
        && (forall d :: d in r.value.0 ==> d in index.docs)
  {
    if documents == [] then Success(([], []))
    else
      match BuildIndex(documents, EmbeddingDim)
      case Failure(e) => Failure(e)
      case Success(index) =>
        var (distances, indices) := search(index.rows, embed(query), topK);
        Success((PickInRange(index.docs, indices), distances))
  }

  // ---------------------------------------------------------------------
  // search_endpoint

  /** One entry of the response. */
  datatype Hit = Hit(
    id: Option<string>,
    chunkText: Option<string>,
    summary: Option<string>,
    tags: Option<seq<string>>,
    timestamp: Option<string>,
    score: real)

  /** The endpoint's answer: a success body, or the `HTTPException`. */
  datatype Response = Ok(results: seq<Hit>) | HttpError(status: int, detail: SearchError)

  /** The dictionary the endpoint builds for one document and its score. */
  function Project(d: Document, score: real): Hit {
    Hit(Get(d.id), Get(d.chunkText), Get(d.summary), Get(d.tags), Get(d.timestamp), score)
  }

  /** The response entries before sorting: result `i` projected and paired
      with score `i`, as far as the shorter of the two lists goes. */
  function Zip(results: seq<Document>, scores: seq<real>): (r: seq<Hit>)
    ensures |r| == if |results| < |scores| then |results| else |scores|
    ensures forall i :: 0 <= i < |r| ==> r[i] == Project(results[i], scores[i])
  {
    var n := if |results| < |scores| then |results| else |scores|;
    seq(n, i requires 0 <= i < n => Project(results[i], scores[i]))
  }

  /** Python's `zip` followed by the projection, one pair at a time: it
      stops as soon as either list runs out. */
  function ZipPairs(results: seq<Document>, scores: seq<real>): (r: seq<Hit>)
    ensures |r| <= |results| && |r| <= |scores|
  {
    if results == [] || scores == [] then []
    else [Project(results[0], scores[0])] + ZipPairs(results[1..], scores[1..])
  }

  /** `response.sort(key=score, reverse=True)` sorts ascending by this key. */
  function NegScore(h: Hit): real {
    -h.score
  }

  predicate ScoreDescending(hits: seq<Hit>) {
    forall i, j :: 0 <= i < j < |hits| ==> hits[i].score >= hits[j].score
  }

  /** The body of `search_endpoint` once `search_faiss` has answered. */
  function Respond(outcome: Result<(seq<Document>, seq<real>), SearchError>): (r: Response)
    ensures outcome.Failure? ==> r == HttpError(500, outcome.error)
    ensures outcome.Success? ==>
      var z := Zip(outcome.value.0, outcome.value.1);
      && r.Ok?
      && |r.results| == |z|
      && multiset(r.results) == multiset(z)
      && ScoreDescending(r.results)
      && forall v :: Sorting.KeyClass(r.results, NegScore, v) == Sorting.KeyClass(z, NegScore, v)
  {
    match outcome
    case Failure(e) => HttpError(500, e)
    case Success((results, scores)) =>
      var z := Zip(results, scores);
      var sorted := Sorting.SortBy(z, NegScore);
      Sorting.SortBySorted(z, NegScore);
      Sorting.SortByPermutation(z, NegScore);
      assert ScoreDescending(sorted) by {
        forall i, j | 0 <= i < j < |sorted|
          ensures sorted[i].score >= sorted[j].score
        {
          assert NegScore(sorted[i]) <= NegScore(sorted[j]);
        }
      }
      assert forall v :: Sorting.KeyClass(sorted, NegScore, v) == Sorting.KeyClass(z, NegScore, v) by {
        forall v {
          Sorting.SortByStable(z, NegScore, v);
        }
      }
      Ok(sorted)
  }

  /** `search_endpoint(query, top_k)` over the stored `documents` as written,
      on top of `search_faiss` as written. */
  function EndpointAsWritten(query: string, topK: int, documents: seq<Document>,
                             embed: string -> seq<real>, search: Searcher): (r: Response)
    ensures documents == [] ==> r == Ok([])
    ensures documents != [] && BuildIndex(documents, EmbeddingDim).Failure? ==>
      r == HttpError(500, BuildIndex(documents, EmbeddingDim).error)
    ensures documents != [] && BuildIndex(documents, EmbeddingDim).Success? ==>
      var index := BuildIndex(documents, EmbeddingDim).value;
      var (distances, indices) := search(index.rows, embed(query), topK);
      && (r.HttpError? <==> exists i :: 0 <= i < |indices| && indices[i] < -|index.docs|)
      && (r.HttpError? ==> r == HttpError(500, IndexOutOfRange))
      && (r.Ok? ==> |r.results| <= |indices| && |r.results| <= |distances|)
  {
    Respond(SearchFaissAsWritten(query, topK, documents, embed, search))
  }

  /** `search_endpoint(query, top_k)` over the stored `documents`, on top of
      `search_faiss` with the corrected guard: only an index build error
      becomes HTTP 500. */
  function Endpoint(query: string, topK: int, documents: seq<Document>,
                    embed: string -> seq<real>, search: Searcher): (r: Response)
    ensures documents == [] ==> r == Ok([])
    ensures documents != [] && BuildIndex(documents, EmbeddingDim).Failure? ==>
      r == HttpError(500, BuildIndex(documents, EmbeddingDim).error)
    ensures documents != [] && BuildIndex(documents, EmbeddingDim).Success? ==>
      var index := BuildIndex(documents, EmbeddingDim).value;
      var (distances, indices) := search(index.rows, embed(query), topK);
      r.Ok? && |r.results| <= |indices| && |r.results| <= |distances|
  {
    Respond(SearchFaiss(query, topK, documents, embed, search))
  }

  // ---------------------------------------------------------------------
  // Lemmas

  /** An empty store answers with no hits and no index is built. */
  lemma {:induction false} EmptyStoreNoHits(query: string, topK: int, embed: string -> seq<real>, search: Searcher)
    ensures Endpoint(query, topK, [], embed, search) == Ok([])
  {
  }

  /** A store where no document has an embedding key is a server error. */
  lemma {:induction false} NoEmbeddingsIsServerError(query: string, topK: int, documents: seq<Document>,
                                  embed: string -> seq<real>, search: Searcher)
    requires documents != []
    requires forall i :: 0 <= i < |documents| ==> documents[i].embedding.Absent?
    ensures Endpoint(query, topK, documents, embed, search) == HttpError(500, NoValidEmbeddings)
  {
  }

  /** `Zip` is Python's `zip` followed by the projection. */
  lemma {:induction false} ZipIsPairwise(results: seq<Document>, scores: seq<real>)
    ensures Zip(results, scores) == ZipPairs(results, scores)
  {
    if results != [] && scores != [] {
      ZipIsPairwise(results[1..], scores[1..]);
      var z := Zip(results, scores);
      assert z == [Project(results[0], scores[0])] + Zip(results[1..], scores[1..]);
    }
  }

  /** As written, a position at or above the number of indexed documents
      is skipped, and every other position, in row order, gives Python's
      `valid_docs[idx]`. */
  lemma {:induction false} PickGuardedKeepsPassing(valid: seq<Document>, indices: seq<int>)
    ensures var r := PickGuardedAsWritten(valid, indices);
      var kept := Filter(indices, (i: int) => i < |valid|);
      r.Success? ==>
        && |r.value| == |kept|
        && forall j :: 0 <= j < |kept| ==> Some(r.value[j]) == PythonIndex(valid, kept[j])
  {
    if indices != [] {
      PickGuardedKeepsPassing(valid, indices[1..]);
    }
  }

  /** With the corrected guard, asking for more neighbours than there are
      indexed documents returns each of them once, paired with its own score, best first. */
  lemma {:induction false} EndpointReturnsRealHits(query: string, topK: int, documents: seq<Document>,
                                embed: string -> seq<real>, search: Searcher)
    requires topK >= 1
    requires BuildIndex(documents, EmbeddingDim).Success?
    requires var index := BuildIndex(documents, EmbeddingDim).value;
      var (distances, indices) := search(index.rows, embed(query), topK);
      PaddedRow(distances, indices, topK, |index.docs|)
    ensures var index := BuildIndex(documents, EmbeddingDim).value;
      var (distances, indices) := search(index.rows, embed(query), topK);
      var n := if topK < |index.docs| then topK else |index.docs|;
      var r := Endpoint(query, topK, documents, embed, search);
      && r.Ok?
      && |r.results| == n
      && multiset(r.results) == multiset(seq(n, i requires 0 <= i < n => Project(index.docs[indices[i]], distances[i])))
      && ScoreDescending(r.results)
  {
    var index := BuildIndex(documents, EmbeddingDim).value;
    var (distances, indices) := search(index.rows, embed(query), topK);
    var n := if topK < |index.docs| then topK else |index.docs|;
    PickInRangeSkipsPadding(index.docs, indices, n);
    assert documents != [];
    var results := PickInRange(index.docs, indices);
    assert SearchFaiss(query, topK, documents, embed, search) == Success((results, distances));
    assert Zip(results, distances) == seq(n, i requires 0 <= i < n => Project(index.docs[indices[i]], distances[i]));
  }

  /** With the guard as written, FAISS's `-1` padding wraps round to the last
      indexed document: asking for more neighbours than there are documents
      returns `topK` results, the surplus all being the last document. */
  lemma {:induction false} AsWrittenPaddingWraps(valid: seq<Document>, distances: seq<real>, indices: seq<int>, k: nat)
    requires |valid| >= 1
    requires PaddedRow(distances, indices, k, |valid|)
    ensures PickGuardedAsWritten(valid, indices).Success?
    ensures |PickGuardedAsWritten(valid, indices).value| == k
    ensures forall i :: |valid| <= i < k ==> PickGuardedAsWritten(valid, indices).value[i] == valid[|valid| - 1]
  {
    var r := PickGuardedAsWritten(valid, indices);
    forall i | |valid| <= i < k
      ensures r.value[i] == valid[|valid| - 1]
    {
      assert Some(r.value[i]) == PythonIndex(valid, indices[i]);
    }
  }

  /** A one-document store asked for two neighbours: FAISS returns the
      document and a `-1` pad scored `-FLT_MAX`, and as written the endpoint
      answers with the same document twice. */
  lemma {:induction false} DuplicateHitAsWritten(doc: Document, embed: string -> seq<real>)
    requires doc.embedding.Present? && |doc.embedding.value| == EmbeddingDim
    ensures var search: Searcher := (rows, q, k) => ([9.0 / 10.0, -FloatMax], [0, -1]);
      EndpointAsWritten("q", 2, [doc], embed, search)
        == Ok([Project(doc, 9.0 / 10.0), Project(doc, -FloatMax)])
  {
    var index := BuildIndex([doc], EmbeddingDim);
    assert Filter([doc], HasEmbeddingKey) == [doc];
    assert index.Success? && index.value.docs == [doc];
    assert [0, -1][1..] == [-1];
    assert [-1][1..] == [];
    assert PickGuardedAsWritten([doc], [-1]) == Success([doc] + []);
    assert PickGuardedAsWritten([doc], [0, -1]) == Success([doc] + [doc]);
    assert [doc] + [doc] == [doc, doc];
    var z := Zip([doc, doc], [9.0 / 10.0, -FloatMax]);
    assert z == [Project(doc, 9.0 / 10.0), Project(doc, -FloatMax)];
    Sorting.SortBySortedIdentity(z, NegScore);
  }

  /** The same search with the corrected guard answers with the document
      once. */
  lemma {:induction false} SingleHitCorrected(doc: Document, embed: string -> seq<real>)
    requires doc.embedding.Present? && |doc.embedding.value| == EmbeddingDim
    ensures var search: Searcher := (rows, q, k) => ([9.0 / 10.0, -FloatMax], [0, -1]);
      Endpoint("q", 2, [doc], embed, search) == Ok([Project(doc, 9.0 / 10.0)])
  {
    var index := BuildIndex([doc], EmbeddingDim);
    assert Filter([doc], HasEmbeddingKey) == [doc];
    assert index.Success? && index.value.docs == [doc];
    assert [0, -1][1..] == [-1];
    assert [-1][1..] == [];
    assert PickInRange([doc], [-1]) == [];
    assert PickInRange([doc], [0, -1]) == [doc];
    var z1 := Zip([doc], [9.0 / 10.0, -FloatMax]);
    assert z1 == [Project(doc, 9.0 / 10.0)];
    Sorting.SortBySortedIdentity(z1, NegScore);
  }

  /** Largest finite float32, FAISS's distance for a padded inner-product slot. */
  const FloatMax: real := 340282346638528859811704183484516925440.0
}

=== FILE: sentences.dfy ===
/** The filtering half of `spacy_sentence_tokenize` (app/pipeline.py). The
    spaCy segmenter itself is opaque: it is represented by the spans it
    returns, which are pieces of the text it was given. */
module Sentences {
  import opened Common
  import opened Text

  /** Every span stripped, span for span. */
  function StripEach(spans: seq<string>): (r: seq<string>)
    ensures |r| == |spans|
    ensures forall i :: 0 <= i < |r| ==> r[i] == Strip(spans[i])
  {
    seq(|spans|, i requires 0 <= i < |spans| => Strip(spans[i]))
  }

  /** The comprehension's `if`: an empty string is falsy. */
  predicate NonBlank(t: string) {
    t != []
  }

  /** The sentences of `spacy_sentence_tokenize`: each span stripped, and the
      spans with nothing left after stripping dropped. */
  function SentenceTokenize(spans: seq<string>): (r: seq<string>)
    ensures |r| <= |spans|
    ensures forall i :: 0 <= i < |r| ==> r[i] != [] && Stripped(r[i])
  {
    var stripped := StripEach(spans);
    var r := Filter(stripped, NonBlank);
    FilterMembers(stripped, NonBlank);
    assert forall i :: 0 <= i < |r| ==> r[i] != [] && Stripped(r[i]) by {
      forall i | 0 <= i < |r|
        ensures r[i] != [] && Stripped(r[i])
      {
        assert r[i] in stripped;
        var j :| 0 <= j < |stripped| && stripped[j] == r[i];
      }
    }
    r
  }

  lemma {:induction false} StripEachAppend(a: seq<string>, b: seq<string>)
    ensures StripEach(a + b) == StripEach(a) + StripEach(b)
  {
  }

  /** Sentences come out in segmenter order: tokenizing two runs of spans is
      tokenizing each and concatenating. */
  lemma {:induction false} SentenceTokenizeAppend(a: seq<string>, b: seq<string>)
    ensures SentenceTokenize(a + b) == SentenceTokenize(a) + SentenceTokenize(b)
  {
    StripEachAppend(a, b);
    FilterAppend(StripEach(a), StripEach(b), NonBlank);
  }

  lemma {:induction false} SentenceTokenizeCons(spans: seq<string>)
    requires spans != []
    ensures SentenceTokenize(spans)
         == (if Strip(spans[0]) == [] then [] else [Strip(spans[0])]) + SentenceTokenize(spans[1..])
  {
    assert spans == [spans[0]] + spans[1..];
    SentenceTokenizeAppend([spans[0]], spans[1..]);
    assert StripEach([spans[0]]) == [Strip(spans[0])];
    assert Filter([Strip(spans[0])], NonBlank) == if Strip(spans[0]) == [] then [] else [Strip(spans[0])];
  }

  /** Every span with visible content survives, stripped. */
  lemma {:induction false} SentenceTokenizeKeeps(spans: seq<string>, j: nat)
    requires j < |spans| && Strip(spans[j]) != []
    ensures Strip(spans[j]) in SentenceTokenize(spans)
  {
    assert StripEach(spans)[j] == Strip(spans[j]);
    FilterMembers(StripEach(spans), NonBlank);
  }

  /** Dropping and stripping spans loses only whitespace. */
  lemma {:induction false} SentenceTokenizeKeepsContent(spans: seq<string>)
    ensures NonSpace(Concat(SentenceTokenize(spans))) == NonSpace(Concat(spans))
  {
    if spans != [] {
      var t := Strip(spans[0]);
      var rest := SentenceTokenize(spans[1..]);
      var head := if t == [] then [] else [t];
      SentenceTokenizeCons(spans);
      SentenceTokenizeKeepsContent(spans[1..]);
      assert Concat(spans) == spans[0] + Concat(spans[1..]);
      NonSpaceAppend(spans[0], Concat(spans[1..]));
      StripKeepsContent(spans[0]);
      ConcatAppend(head, rest);
      assert Concat(head) == t by {
        if t != [] {
          assert head[1..] == [];
        }
      }
      NonSpaceAppend(t, Concat(rest));
    }
  }

  /** A non-empty string with no whitespace at either end has visible
      content. */
  lemma {:induction false} StrippedHasContent(s: string)
    requires s != [] && Stripped(s)
    ensures NonSpace(s) != []
  {
    NonSpaceEmpty(s);
  }

  /** When the spans carry the text's non-whitespace content, in order (the
      whitespace between sentences may be dropped, as spaCy's `Span.text`
      drops it), the sentences hold all of that content, in order; so a
      blank text yields no sentence. */
  lemma {:induction false} SentencesCoverText(text: string, spans: seq<string>)
    requires NonSpace(Concat(spans)) == NonSpace(text)
    ensures NonSpace(Concat(SentenceTokenize(spans))) == NonSpace(text)
    ensures text == [] ==> SentenceTokenize(spans) == []
  {
    var ss := SentenceTokenize(spans);
    SentenceTokenizeKeepsContent(spans);
    if text == [] && ss != [] {
      StrippedHasContent(ss[0]);
      assert Concat(ss) == ss[0] + Concat(ss[1..]);
      NonSpaceAppend(ss[0], Concat(ss[1..]));
      assert false;
    }
  }

  /** Two sentences as spaCy reports them, without the space between them,
      meet the hypothesis of `SentencesCoverText` and keep the content. */
  lemma {:induction false} TwoSentencesCoverText()
    ensures NonSpace(Concat(SentenceTokenize(["A.", "B."]))) == NonSpace("A. B.")
  {
    var spans := ["A.", "B."];
    assert Concat(spans) == "A." + Concat(["B."]);
    assert Concat(["B."]) == "B." + Concat([]);
    assert Concat(spans) == "A." + "B.";
    assert "A. B." == "A." + " " + "B.";
    NonSpaceAppend("A." + " ", "B.");
    NonSpaceAppend("A.", " ");
    NonSpaceAppend("A.", "B.");
    NonSpaceEmpty(" ");
    NonSpaceEmpty("A.");
    NonSpaceEmpty("B.");
    NonSpaceKeepsWord("A.");
    NonSpaceKeepsWord("B.");
    SentencesCoverText("A. B.", spans);
  }
}

=== FILE: sorting.dfy ===
/** Python's `sorted(xs, key=k)` / `xs.sort(key=k)`: a stable sort,
    ascending by a key. A descending sort (`reverse=True`) keeps equal keys in
    their original order too, so it is this sort on the negated key. */
module Sorting {

  /** Keys never decrease along `s`. */
  predicate SortedBy<T>(s: seq<T>, key: T -> real) {
    forall i, j :: 0 <= i < j < |s| ==> key(s[i]) <= key(s[j])
  }

  /** The elements of `s` whose key is `v`, in their order in `s`. */
  function KeyClass<T>(s: seq<T>, key: T -> real, v: real): seq<T> {
    if s == [] then []
    else (if key(s[0]) == v then [s[0]] else []) + KeyClass(s[1..], key, v)
  }

  /** Puts `x` in front of the first element whose key is not below its own. */
  function Insert<T>(x: T, s: seq<T>, key: T -> real): (r: seq<T>)
    ensures |r| == |s| + 1
  {
    if s == [] then [x]
    else if key(x) <= key(s[0]) then [x] + s
    else [s[0]] + Insert(x, s[1..], key)
  }

  /** Inserting adds exactly `x`. */
  lemma {:induction false} InsertPermutation<T>(x: T, s: seq<T>, key: T -> real)
    ensures multiset(Insert(x, s, key)) == multiset(s) + multiset{x}
  {
    if s != [] && key(x) > key(s[0]) {
      InsertPermutation(x, s[1..], key);
      assert s == [s[0]] + s[1..];
    }
  }

  /** The head of an insertion is `x` or the old head. */
  lemma {:induction false} InsertHead<T>(x: T, s: seq<T>, key: T -> real)
    ensures Insert(x, s, key)[0] == x || (s != [] && Insert(x, s, key)[0] == s[0])
  {
  }

  /** Inserting into a sorted sequence keeps it sorted. */
  lemma {:induction false} InsertSorted<T>(x: T, s: seq<T>, key: T -> real)
    requires SortedBy(s, key)
    ensures SortedBy(Insert(x, s, key), key)
  {
    if s != [] && key(x) > key(s[0]) {
      var rest := Insert(x, s[1..], key);
      assert SortedBy(s[1..], key);
      InsertSorted(x, s[1..], key);
      InsertHead(x, s[1..], key);
      assert key(s[0]) <= key(rest[0]);
      var r := [s[0]] + rest;
      forall i, j | 0 <= i < j < |r|
        ensures key(r[i]) <= key(r[j])
      {
        if i > 0 {
          assert r[i] == rest[i - 1] && r[j] == rest[j - 1];
        } else {
          assert r[j] == rest[j - 1];
          assert key(rest[0]) <= key(rest[j - 1]);
        }
      }
    }
  }

  /** Insertion sort, taking the elements from the front. */
  function SortBy<T>(s: seq<T>, key: T -> real): (r: seq<T>)
    ensures |r| == |s|
  {
    if s == [] then [] else Insert(s[0], SortBy(s[1..], key), key)
  }

  /** The sorted sequence is ordered by the key. */
  lemma {:induction false} SortBySorted<T>(s: seq<T>, key: T -> real)
    ensures SortedBy(SortBy(s, key), key)
  {
    if s != [] {
      SortBySorted(s[1..], key);
      InsertSorted(s[0], SortBy(s[1..], key), key);
    }
  }

  /** The sorted sequence is a permutation of the input. */
  lemma {:induction false} SortByPermutation<T>(s: seq<T>, key: T -> real)
    ensures multiset(SortBy(s, key)) == multiset(s)
  {
    if s != [] {
      SortByPermutation(s[1..], key);
      InsertPermutation(s[0], SortBy(s[1..], key), key);
      assert s == [s[0]] + s[1..];
    }
  }

  lemma {:induction false} KeyClassCons<T>(y: T, t: seq<T>, key: T -> real, v: real)
    ensures KeyClass([y] + t, key, v) == (if key(y) == v then [y] else []) + KeyClass(t, key, v)
  {
    assert ([y] + t)[1..] == t;
  }

  lemma {:induction false} KeyClassOfInsert<T>(x: T, s: seq<T>, key: T -> real, v: real)
    ensures KeyClass(Insert(x, s, key), key, v)
         == (if key(x) == v then [x] else []) + KeyClass(s, key, v)
  {
    if s == [] {
      KeyClassCons(x, [], key, v);
      assert [x] + [] == [x];
    } else if key(x) <= key(s[0]) {
      KeyClassCons(x, s, key, v);
    } else {
      var t := Insert(x, s[1..], key);
      KeyClassCons(s[0], t, key, v);
      KeyClassOfInsert(x, s[1..], key, v);
      KeyClassCons(s[0], s[1..], key, v);
      assert s == [s[0]] + s[1..];
      if key(x) == v {
        assert key(s[0]) != v;
      }
    }
  }

  /** Stability: the elements sharing any one key keep their relative order. */
  lemma {:induction false} SortByStable<T>(s: seq<T>, key: T -> real, v: real)
    ensures KeyClass(SortBy(s, key), key, v) == KeyClass(s, key, v)
  {
    if s != [] {
      SortByStable(s[1..], key, v);
      KeyClassOfInsert(s[0], SortBy(s[1..], key), key, v);
    }
  }

  /** Sorting an already sorted sequence changes nothing. */
  lemma {:induction false} SortBySortedIdentity<T>(s: seq<T>, key: T -> real)
    requires SortedBy(s, key)
    ensures SortBy(s, key) == s
  {
    if s != [] {
      assert SortedBy(s[1..], key);
      SortBySortedIdentity(s[1..], key);
      assert s == [s[0]] + s[1..];
    }
  }
}

=== FILE: text.dfy ===
/** String handling of app/pipeline.py: Python's whitespace class, `strip()`,
    `split()`, `" ".join(...)`, `lower()`, and `preprocess_text`, which is
    `re.sub(r'\s+', ' ', text).strip()`. */
module Text {
  import opened Common

  /** Python's `str.isspace()`, which is also what `\s` matches in a `str`
      regular expression and what `strip()` and `split()` remove. */
  predicate IsSpace(c: char) {
    || c == ' '
    || ('\t' <= c <= '\r')
    || ('\U{1C}' <= c <= '\U{1F}')
    || c == '\U{85}' || c == '\U{A0}' || c == '\U{1680}'
    || ('\U{2000}' <= c <= '\U{200A}')
    || c == '\U{2028}' || c == '\U{2029}' || c == '\U{202F}'
    || c == '\U{205F}' || c == '\U{3000}'
  }

  /** The non-whitespace characters of `s`, in order. */
  function NonSpace(s: string): string {
    if s == [] then [] else (if IsSpace(s[0]) then [] else [s[0]]) + NonSpace(s[1..])
  }

  /** Python's `s.lstrip()`. */
  function TrimStart(s: string): (r: string)
    ensures |r| <= |s|
    ensures r == [] || !IsSpace(r[0])
  {
    if s != [] && IsSpace(s[0]) then TrimStart(s[1..]) else s
  }

  /** Python's `s.rstrip()`. */
  function TrimEnd(s: string): (r: string)
    ensures |r| <= |s|
    ensures r == [] || !IsSpace(r[|r| - 1])
  {
    if s != [] && IsSpace(s[|s| - 1]) then TrimEnd(s[..|s| - 1]) else s
  }

  /** No whitespace at either end. */
  predicate Stripped(s: string) {
    s == [] || (!IsSpace(s[0]) && !IsSpace(s[|s| - 1]))
  }

  /** Python's `s.strip()`. */
  function Strip(s: string): (r: string)
    ensures Stripped(r)
  {
    var t := TrimStart(s);
    var r := TrimEnd(t);
    TrimEndPrefix(t);
    r
  }

  /** Every whitespace character is a plain space followed by a
      non-whitespace character (or by nothing). */
  predicate SingleSpaced(s: string) {
    forall i :: 0 <= i < |s| && IsSpace(s[i]) ==>
      s[i] == ' ' && (i + 1 < |s| ==> !IsSpace(s[i + 1]))
  }

  /** The shape of `preprocess_text`'s output: whitespace occurs only as
      single plain spaces strictly between two non-whitespace characters. */
  predicate Normal(s: string) {
    forall i :: 0 <= i < |s| && IsSpace(s[i]) ==>
      s[i] == ' ' && 0 < i < |s| - 1 && !IsSpace(s[i + 1])
  }

  /** `re.sub(r'\s+', ' ', s)`: each maximal run of whitespace becomes one
      plain space. */
  function Collapse(s: string): (r: string)
    ensures SingleSpaced(r)
    ensures s != [] ==> r != [] && r[0] == (if IsSpace(s[0]) then ' ' else s[0])
    decreases |s|
  {
    if s == [] then []
    else if IsSpace(s[0]) then
      var rest := Collapse(TrimStart(s[1..]));
      assert forall i :: 0 < i < |[' '] + rest| ==> ([' '] + rest)[i] == rest[i - 1];
      [' '] + rest
    else
      var rest := Collapse(s[1..]);
      assert forall i :: 0 < i < |[s[0]] + rest| ==> ([s[0]] + rest)[i] == rest[i - 1];
      [s[0]] + rest
  }

  /** `preprocess_text` (app/pipeline.py): collapse whitespace runs, then strip. */
  function Normalize(s: string): (r: string)
    ensures Normal(r)
  {
    var c := Collapse(s);
    StripOfSingleSpacedIsNormal(c);
    Strip(c)
  }

  /** A non-empty run of non-whitespace characters. */
  predicate IsWord(w: string) {
    w != [] && forall i :: 0 <= i < |w| ==> !IsSpace(w[i])
  }

  /** Python's `s.split()`: the maximal runs of non-whitespace characters. */
  function Words(s: string): (r: seq<string>)
    ensures forall k :: 0 <= k < |r| ==> IsWord(r[k])
  {
    SplitFrom(s, [])
  }

  /** `split()` of `s` when the word `cur` has been read just before it. */
  function SplitFrom(s: string, cur: string): (r: seq<string>)
    requires forall i :: 0 <= i < |cur| ==> !IsSpace(cur[i])
    ensures forall k :: 0 <= k < |r| ==> IsWord(r[k])
  {
    if s == [] then
      if cur == [] then [] else [cur]
    else if IsSpace(s[0]) then
      var rest := SplitFrom(s[1..], []);
      if cur == [] then rest
      else
        assert forall k :: 0 < k < |[cur] + rest| ==> ([cur] + rest)[k] == rest[k - 1];
        [cur] + rest
    else
      assert forall i :: 0 <= i < |cur + [s[0]]| ==> (cur + [s[0]])[i] == if i < |cur| then cur[i] else s[0];
      SplitFrom(s[1..], cur + [s[0]])
  }

  /** `len(s.split())`. */
  function WordCount(s: string): nat {
    |Words(s)|
  }

  /** Python's `sep.join(ss)`. */
  function Join(ss: seq<string>, sep: string): (r: string)
    ensures ss != [] ==> ss[0] <= r
  {
    if ss == [] then []
    else if |ss| == 1 then ss[0]
    else ss[0] + sep + Join(ss[1..], sep)
  }

  /** `c.lower()` on one character; only ASCII letters are mapped. */
  function LowerChar(c: char): char {
    if 'A' <= c <= 'Z' then (c as int + 32) as char else c
  }

  /** Python's `s.lower()`, restricted to ASCII letters. */
  function Lower(s: string): (r: string)
    ensures |r| == |s|
    ensures forall i :: 0 <= i < |r| ==> !('A' <= r[i] <= 'Z')
    ensures forall i :: 0 <= i < |s| && 'A' <= s[i] <= 'Z' ==> r[i] as int == s[i] as int + ('a' as int - 'A' as int)
    ensures forall i :: 0 <= i < |s| && !('A' <= s[i] <= 'Z') ==> r[i] == s[i]
  {
    seq(|s|, i requires 0 <= i < |s| => LowerChar(s[i]))
  }

  // ---------------------------------------------------------------------
  // Lemmas

  /** `lstrip()` removes a prefix of whitespace and keeps the rest as it is. */
  lemma {:induction false} TrimStartSuffix(s: string)
    ensures var r := TrimStart(s);
      && r == s[|s| - |r|..]
      && forall i :: 0 <= i < |s| - |r| ==> IsSpace(s[i])
  {
    if s != [] && IsSpace(s[0]) {
      TrimStartSuffix(s[1..]);
      var r := TrimStart(s[1..]);
      assert s[1..][|s| - 1 - |r|..] == s[|s| - |r|..];
      assert forall i :: 1 <= i < |s| ==> s[i] == s[1..][i - 1];
    }
  }

  /** `rstrip()` removes a suffix of whitespace and keeps the rest as it is. */
  lemma {:induction false} TrimEndPrefix(s: string)
    ensures var r := TrimEnd(s);
      && r == s[..|r|]
      && forall i :: |r| <= i < |s| ==> IsSpace(s[i])
  {
    if s != [] && IsSpace(s[|s| - 1]) {
      TrimEndPrefix(s[..|s| - 1]);
      var r := TrimEnd(s[..|s| - 1]);
      assert s[..|s| - 1][..|r|] == s[..|r|];
      assert forall i :: 0 <= i < |s| - 1 ==> s[i] == s[..|s| - 1][i];
    }
  }

  lemma {:induction false} NonSpaceAppend(a: string, b: string)
    ensures NonSpace(a + b) == NonSpace(a) + NonSpace(b)
  {
    if a == [] {
      assert a + b == b;
    } else {
      assert (a + b)[1..] == a[1..] + b;
      NonSpaceAppend(a[1..], b);
    }
  }

  /** A string with no whitespace is its own non-whitespace content. */
  lemma {:induction false} NonSpaceKeepsWord(w: string)
    requires forall i :: 0 <= i < |w| ==> !IsSpace(w[i])
    ensures NonSpace(w) == w
  {
    if w != [] {
      assert forall i :: 0 <= i < |w| - 1 ==> w[1..][i] == w[i + 1];
      NonSpaceKeepsWord(w[1..]);
      assert w == [w[0]] + w[1..];
    }
  }

  /** A string has no non-whitespace content exactly when it is all whitespace. */
  lemma {:induction false} NonSpaceEmpty(s: string)
    ensures NonSpace(s) == [] <==> forall i :: 0 <= i < |s| ==> IsSpace(s[i])
  {
    if s != [] {
      NonSpaceEmpty(s[1..]);
      assert forall i :: 1 <= i < |s| ==> s[i] == s[1..][i - 1];
    }
  }

  /** A suffix of a single-spaced string is single-spaced. */
  lemma {:induction false} SingleSpacedSuffix(c: string, a: nat)
    requires SingleSpaced(c) && a <= |c|
    ensures SingleSpaced(c[a..])
  {
    var t := c[a..];
    forall i | 0 <= i < |t| && IsSpace(t[i])
      ensures t[i] == ' ' && (i + 1 < |t| ==> !IsSpace(t[i + 1]))
    {
      assert t[i] == c[a + i];
      if i + 1 < |t| {
        assert t[i + 1] == c[a + i + 1];
      }
    }
  }

  /** Cutting whitespace off the end of a single-spaced string that starts
      with a non-whitespace character leaves a normal one. */
  lemma {:induction false} TrimEndOfSingleSpacedIsNormal(t: string)
    requires SingleSpaced(t) && (t == [] || !IsSpace(t[0]))
    ensures Normal(TrimEnd(t))
  {
    var r := TrimEnd(t);
    TrimEndPrefix(t);
    forall i | 0 <= i < |r| && IsSpace(r[i])
      ensures r[i] == ' ' && 0 < i < |r| - 1 && !IsSpace(r[i + 1])
    {
      assert r[i] == t[i];
      assert i != 0;
      assert i != |r| - 1;
      assert r[i + 1] == t[i + 1];
    }
  }

  /** Stripping a single-spaced string leaves a normal one. */
  lemma {:induction false} StripOfSingleSpacedIsNormal(c: string)
    requires SingleSpaced(c)
    ensures Normal(Strip(c))
  {
    var t := TrimStart(c);
    TrimStartSuffix(c);
    SingleSpacedSuffix(c, |c| - |t|);
    TrimEndOfSingleSpacedIsNormal(t);
  }

  lemma {:induction false} TrimStartKeepsContent(s: string)
    ensures NonSpace(TrimStart(s)) == NonSpace(s)
  {
    var t := TrimStart(s);
    var a := |s| - |t|;
    TrimStartSuffix(s);
    assert s == s[..a] + t;
    NonSpaceAppend(s[..a], t);
    NonSpaceEmpty(s[..a]);
  }

  lemma {:induction false} TrimEndKeepsContent(s: string)
    ensures NonSpace(TrimEnd(s)) == NonSpace(s)
  {
    var r := TrimEnd(s);
    TrimEndPrefix(s);
    var tail := s[|r|..];
    assert s == r + tail;
    NonSpaceAppend(r, tail);
    assert forall i :: 0 <= i < |tail| ==> tail[i] == s[|r| + i];
    NonSpaceEmpty(tail);
  }

  /** Stripping loses only whitespace. */
  lemma {:induction false} StripKeepsContent(s: string)
    ensures NonSpace(Strip(s)) == NonSpace(s)
  {
    TrimStartKeepsContent(s);
    TrimEndKeepsContent(TrimStart(s));
  }

  lemma {:induction false} NonSpaceCons(c: char, s: string)
    ensures NonSpace([c] + s) == (if IsSpace(c) then [] else [c]) + NonSpace(s)
  {
    assert ([c] + s)[1..] == s;
  }

  /** Collapsing whitespace runs loses only whitespace. */
  lemma {:induction false} CollapseKeepsContent(s: string)
    ensures NonSpace(Collapse(s)) == NonSpace(s)
    decreases |s|
  {
    if s != [] {
      assert s == [s[0]] + s[1..];
      NonSpaceCons(s[0], s[1..]);
      if IsSpace(s[0]) {
        var t := TrimStart(s[1..]);
        CollapseKeepsContent(t);
        NonSpaceCons(' ', Collapse(t));
        TrimStartKeepsContent(s[1..]);
      } else {
        CollapseKeepsContent(s[1..]);
        NonSpaceCons(s[0], Collapse(s[1..]));
      }
    }
  }

  /** `preprocess_text` keeps every non-whitespace character, in order. */
  lemma {:induction false} NormalizeKeepsContent(s: string)
    ensures NonSpace(Normalize(s)) == NonSpace(s)
  {
    CollapseKeepsContent(s);
    StripKeepsContent(Collapse(s));
  }

  lemma {:induction false} CollapseOfSingleSpaced(s: string)
    requires SingleSpaced(s)
    ensures Collapse(s) == s
    decreases |s|
  {
    if s != [] {
      SingleSpacedSuffix(s, 1);
      if IsSpace(s[0]) {
        assert TrimStart(s[1..]) == s[1..];
      }
      CollapseOfSingleSpaced(s[1..]);
      assert s == [s[0]] + s[1..];
    }
  }

  /** A string already in `preprocess_text`'s output shape is left alone. */
  lemma {:induction false} NormalizeOfNormal(s: string)
    requires Normal(s)
    ensures Normalize(s) == s
  {
    CollapseOfSingleSpaced(s);
    assert TrimStart(s) == s;
    assert TrimEnd(s) == s;
  }

  /** `preprocess_text` is idempotent. */
  lemma {:induction false} NormalizeIdempotent(s: string)
    ensures Normalize(Normalize(s)) == Normalize(s)
  {
    NormalizeOfNormal(Normalize(s));
  }

  /** `preprocess_text` yields "" exactly for empty or whitespace-only input. */
  lemma {:induction false} NormalizeEmptyIffBlank(s: string)
    ensures Normalize(s) == [] <==> forall i :: 0 <= i < |s| ==> IsSpace(s[i])
  {
    var r := Normalize(s);
    NormalizeKeepsContent(s);
    NonSpaceEmpty(s);
    NonSpaceEmpty(r);
  }

  /** The strings `strip()` leaves alone are exactly those with no
      whitespace at either end. */
  lemma {:induction false} StripFixpoints(s: string)
    ensures Strip(s) == s <==> Stripped(s)
  {
    if Stripped(s) {
      assert TrimStart(s) == s;
      assert TrimEnd(s) == s;
    }
  }

  /** `strip()` is idempotent. */
  lemma {:induction false} StripIdempotent(s: string)
    ensures Strip(Strip(s)) == Strip(s)
  {
    var r := Strip(s);
    assert TrimStart(r) == r by {
      if r != [] {
        TrimEndPrefix(TrimStart(s));
        assert r == TrimStart(s)[..|r|];
      }
    }
  }

  lemma {:induction false} SplitFromKeepsContent(s: string, cur: string)
    requires forall i :: 0 <= i < |cur| ==> !IsSpace(cur[i])
    ensures Concat(SplitFrom(s, cur)) == cur + NonSpace(s)
  {
    if s == [] {
      if cur != [] {
        assert [cur][1..] == [];
      }
    } else if IsSpace(s[0]) {
      SplitFromKeepsContent(s[1..], []);
      var rest := SplitFrom(s[1..], []);
      if cur != [] {
        assert ([cur] + rest)[1..] == rest;
      }
    } else {
      var c := cur + [s[0]];
      assert forall i :: 0 <= i < |c| ==> c[i] == if i < |cur| then cur[i] else s[0];
      SplitFromKeepsContent(s[1..], c);
    }
  }

  /** `split()` loses only whitespace: the words, run together, are the
      non-whitespace characters of `s` in order. */
  lemma {:induction false} WordsKeepContent(s: string)
    ensures Concat(Words(s)) == NonSpace(s)
  {
    SplitFromKeepsContent(s, []);
    assert [] + NonSpace(s) == NonSpace(s);
  }

  /** Joining with a whitespace separator adds only whitespace: the joined
      string has the non-whitespace content of the pieces, in order. */
  lemma {:induction false} JoinKeepsContent(ss: seq<string>, sep: string)
    requires forall i :: 0 <= i < |sep| ==> IsSpace(sep[i])
    ensures NonSpace(Join(ss, sep)) == NonSpace(Concat(ss))
  {
    if |ss| == 1 {
      assert Concat(ss) == ss[0] + Concat(ss[1..]);
      assert ss[0] + [] == ss[0];
    } else if |ss| > 1 {
      JoinKeepsContent(ss[1..], sep);
      NonSpaceEmpty(sep);
      NonSpaceAppend(ss[0] + sep, Join(ss[1..], sep));
      NonSpaceAppend(ss[0], sep);
      NonSpaceAppend(ss[0], Concat(ss[1..]));
      assert Concat(ss) == ss[0] + Concat(ss[1..]);
    }
  }

  /** Lowering is idempotent, so the labels it produces are already lower case. */
  lemma {:induction false} LowerIdempotent(s: string)
    ensures Lower(Lower(s)) == Lower(s)
  {
  }

  // ---------------------------------------------------------------------
  // Where `split()` breaks words, and `" ".join(s.split())`

  /** Reading a run of non-whitespace characters extends the current word. */
  lemma {:induction false} SplitFromWord(w: string, t: string, cur: string)
    requires forall i :: 0 <= i < |cur| ==> !IsSpace(cur[i])
    requires forall i :: 0 <= i < |w| ==> !IsSpace(w[i])
    ensures SplitFrom(w + t, cur) == SplitFrom(t, cur + w)
  {
    if w == [] {
      assert w + t == t && cur + w == cur;
    } else {
      assert (w + t)[0] == w[0] && (w + t)[1..] == w[1..] + t;
      var c := cur + [w[0]];
      assert forall i :: 0 <= i < |c| ==> c[i] == if i < |cur| then cur[i] else w[0];
      SplitFromWord(w[1..], t, c);
      assert c + w[1..] == cur + w;
    }
  }

  /** Whitespace alone, read between words, yields no word. */
  lemma {:induction false} SplitFromBlank(z: string)
    requires forall i :: 0 <= i < |z| ==> IsSpace(z[i])
    ensures SplitFrom(z, []) == []
  {
    if z != [] {
      assert forall i :: 0 <= i < |z| - 1 ==> z[1..][i] == z[i + 1];
      SplitFromBlank(z[1..]);
    }
  }

  /** Leading whitespace read between words is skipped. */
  lemma {:induction false} SplitFromTrimStart(s: string)
    ensures SplitFrom(TrimStart(s), []) == SplitFrom(s, [])
  {
    if s != [] && IsSpace(s[0]) {
      SplitFromTrimStart(s[1..]);
    }
  }

  /** Trailing whitespace adds no word. */
  lemma {:induction false} SplitFromTrailing(s: string, z: string, cur: string)
    requires forall i :: 0 <= i < |cur| ==> !IsSpace(cur[i])
    requires forall i :: 0 <= i < |z| ==> IsSpace(z[i])
    ensures SplitFrom(s + z, cur) == SplitFrom(s, cur)
  {
    if s == [] {
      assert s + z == z;
      if z != [] {
        assert forall i :: 0 <= i < |z| - 1 ==> z[1..][i] == z[i + 1];
        SplitFromBlank(z[1..]);
        if cur != [] {
          assert [cur] + [] == [cur];
        }
      }
    } else {
      assert (s + z)[0] == s[0] && (s + z)[1..] == s[1..] + z;
      if IsSpace(s[0]) {
        SplitFromTrailing(s[1..], z, []);
      } else {
        var c := cur + [s[0]];
        assert forall i :: 0 <= i < |c| ==> c[i] == if i < |cur| then cur[i] else s[0];
        SplitFromTrailing(s[1..], z, c);
      }
    }
  }

  /** `split()` undoes `" ".join(...)` of words: joining words with single
      spaces and splitting again gives the same words back. */
  lemma {:induction false} WordsOfJoin(ws: seq<string>)
    requires forall k :: 0 <= k < |ws| ==> IsWord(ws[k])
    ensures Words(Join(ws, " ")) == ws
  {
    if |ws| == 1 {
      SplitFromWord(ws[0], [], []);
      assert ws[0] + [] == ws[0] && [] + ws[0] == ws[0];
      assert Words(Join(ws, " ")) == SplitFrom([], ws[0]);
    } else if |ws| > 1 {
      var w := ws[0];
      var rest := Join(ws[1..], " ");
      assert forall k :: 0 <= k < |ws| - 1 ==> ws[1..][k] == ws[k + 1];
      WordsOfJoin(ws[1..]);
      assert Join(ws, " ") == w + ([' '] + rest);
      SplitFromWord(w, [' '] + rest, []);
      assert [] + w == w;
      assert ([' '] + rest)[1..] == rest;
      assert SplitFrom([' '] + rest, w) == [w] + SplitFrom(rest, []);
      assert ws == [w] + ws[1..];
    }
  }

  /** Collapsing whitespace runs leaves the words where they were. */
  lemma {:induction false} SplitFromCollapse(s: string, cur: string)
    requires forall i :: 0 <= i < |cur| ==> !IsSpace(cur[i])
    ensures SplitFrom(Collapse(s), cur) == SplitFrom(s, cur)
    decreases |s|
  {
    if s != [] {
      if IsSpace(s[0]) {
        var t := TrimStart(s[1..]);
        SplitFromCollapse(t, []);
        SplitFromTrimStart(s[1..]);
        assert ([' '] + Collapse(t))[1..] == Collapse(t);
      } else {
        var c := cur + [s[0]];
        assert forall i :: 0 <= i < |c| ==> c[i] == if i < |cur| then cur[i] else s[0];
        SplitFromCollapse(s[1..], c);
        assert ([s[0]] + Collapse(s[1..]))[1..] == Collapse(s[1..]);
      }
    }
  }

  /** `re.sub(r'\s+', ' ', s)` splits into the same words as `s`: a
      whitespace run between two words survives as a separator. */
  lemma {:induction false} WordsOfCollapse(s: string)
    ensures Words(Collapse(s)) == Words(s)
  {
    SplitFromCollapse(s, []);
  }

  /** `strip()` does not change the words. */
  lemma {:induction false} WordsOfStrip(s: string)
    ensures Words(Strip(s)) == Words(s)
  {
    var t := TrimStart(s);
    SplitFromTrimStart(s);
    var r := TrimEnd(t);
    TrimEndPrefix(t);
    var z := t[|r|..];
    assert t == r + z;
    assert forall i :: 0 <= i < |z| ==> z[i] == t[|r| + i];
    SplitFromTrailing(r, z, []);
  }

  /** A single word splits into itself. */
  lemma {:induction false} WordsOfWord(w: string)
    requires IsWord(w)
    ensures Words(w) == [w]
  {
    SplitFromWord(w, [], []);
    assert w + [] == w && [] + w == w;
  }

  /** Past the first space of a normal string, the rest is normal and begins
      with a non-whitespace character. */
  lemma {:induction false} NormalAfterSpace(t: string, p: nat)
    requires Normal(t) && p < |t| && IsSpace(t[p])
    ensures 0 < p < |t| - 1 && t[p] == ' '
    ensures Normal(t[p + 1..]) && !IsSpace(t[p + 1])
  {
    var u := t[p + 1..];
    forall j | 0 <= j < |u| && IsSpace(u[j])
      ensures u[j] == ' ' && 0 < j < |u| - 1 && !IsSpace(u[j + 1])
    {
      assert u[j] == t[p + 1 + j];
      assert u[j + 1] == t[p + 2 + j];
    }
  }

  /** A word followed by a space: the word comes first, then the words of
      the rest. */
  lemma {:induction false} WordsAfterWord(w: string, u: string)
    requires IsWord(w)
    ensures Words(w + ([' '] + u)) == [w] + Words(u)
  {
    SplitFromWord(w, [' '] + u, []);
    assert [] + w == w;
    assert ([' '] + u)[1..] == u;
  }

  /** Putting a word and a space in front of a string that is its words
      joined by single spaces keeps that property. */
  lemma {:induction false} JoinedWordsCons(w: string, u: string)
    requires IsWord(w) && u != []
    requires Join(Words(u), " ") == u
    ensures Join(Words(w + ([' '] + u)), " ") == w + ([' '] + u)
  {
    var ws := Words(u);
    WordsAfterWord(w, u);
    assert ws != [];
    assert ([w] + ws)[1..] == ws;
    assert Join([w] + ws, " ") == w + " " + Join(ws, " ");
  }

  /** A string in `preprocess_text`'s output shape is its words joined by
      single spaces. */
  lemma {:induction false} NormalIsJoinedWords(t: string)
    requires Normal(t)
    ensures Join(Words(t), " ") == t
    decreases |t|
  {
    if t != [] {
      if p0 :| 0 <= p0 < |t| && IsSpace(t[p0]) {
        var p := FirstSpace(t, p0);
        NormalAfterSpace(t, p);
        var w := t[..p];
        var u := t[p + 1..];
        NormalIsJoinedWords(u);
        JoinedWordsCons(w, u);
        assert t == w + ([' '] + u);
      } else {
        WordsOfWord(t);
      }
    }
  }

  /** The first whitespace position of `t`, at or before a known one. */
  function FirstSpace(t: string, p: nat): (q: nat)
    requires p < |t| && IsSpace(t[p])
    ensures q <= p && IsSpace(t[q])
    ensures forall i :: 0 <= i < q ==> !IsSpace(t[i])
  {
    if p == 0 then 0
    else if exists i :: 0 <= i < p && IsSpace(t[i]) then
      var i :| 0 <= i < p && IsSpace(t[i]);
      FirstSpace(t, i)
    else p
  }

  /** `preprocess_text(s) == " ".join(s.split())`: the output is the words
      of the input joined by single spaces. */
  lemma {:induction false} NormalizeIsJoinedWords(s: string)
    ensures Normalize(s) == Join(Words(s), " ")
  {
    var c := Collapse(s);
    WordsOfCollapse(s);
    WordsOfStrip(c);
    NormalIsJoinedWords(Normalize(s));
  }
}

=== FILE: versions.dfy ===
/** How the two copies of the search code relate: app/endpoints/search.py
    keeps every document that has an `embedding` key, faiss_search.py every
    document whose `embedding` is not `None`, and the records `run_pipeline`
    stores are indexed whole by either. */
module SearchVersions {
  import opened Common
  import opened Records
  import opened Faiss
  import SearchEndpoint
  import FaissSearch
  import Pipeline

  /** Without a stored `None` embedding the two builds are the same function. */
  lemma {:induction false} BuildsAgreeWithoutNull(documents: seq<Document>, dim: nat)
    requires forall i :: 0 <= i < |documents| ==> !documents[i].embedding.Null?
    ensures SearchEndpoint.BuildIndex(documents, dim) == FaissSearch.BuildIndex(documents, dim)
  {
    FilterEquivalent(documents, SearchEndpoint.HasEmbeddingKey, FaissSearch.HasEmbedding);
  }

  /** A stored `None` embedding makes the endpoint's build fail while the
      script's build skips that document. */
  lemma {:induction false} NullEmbeddingDiverges(documents: seq<Document>, dim: nat)
    requires exists i :: 0 <= i < |documents| && documents[i].embedding.Null?
    requires FaissSearch.BuildIndex(documents, dim).Success?
    ensures SearchEndpoint.BuildIndex(documents, dim) == Failure(MalformedEmbeddings)
    ensures forall d :: d in FaissSearch.BuildIndex(documents, dim).value.docs ==> !d.embedding.Null?
  {
  }

  /** A non-empty store whose every embedding is a vector of the index's
      width is indexed whole, and by both builds alike. */
  lemma {:induction false} CompleteStoreIndexedWhole(documents: seq<Document>, dim: nat)
    requires documents != []
    requires forall i :: 0 <= i < |documents| ==>
      documents[i].embedding.Present? && |documents[i].embedding.value| == dim
    ensures SearchEndpoint.BuildIndex(documents, dim).Success?
    ensures SearchEndpoint.BuildIndex(documents, dim).value.docs == documents
    ensures FaissSearch.BuildIndex(documents, dim) == SearchEndpoint.BuildIndex(documents, dim)
  {
    FilterAll(documents, SearchEndpoint.HasEmbeddingKey);
    assert Addable(documents, dim);
    BuildsAgreeWithoutNull(documents, dim);
  }

  /** Every stored record carries an embedding of the index's width,
      provided the embedding model yields vectors of that width. */
  lemma {:induction false} StoredRecordsComplete(chunks: seq<string>, sourceId: string, models: Pipeline.Models,
                                                 now: string, uuid: nat -> string)
    requires forall t :: |models.embed(t)| == EmbeddingDim
    ensures var records := Pipeline.StoreChunks(chunks, sourceId, models, now, uuid);
      forall i :: 0 <= i < |records| ==>
        records[i].embedding.Present? && |records[i].embedding.value| == EmbeddingDim
  {
    var records := Pipeline.StoreChunks(chunks, sourceId, models, now, uuid);
    forall i | 0 <= i < |records|
      ensures records[i].embedding.Present? && |records[i].embedding.value| == EmbeddingDim
    {
      assert Pipeline.RecordOf(records[i], chunks[i], i, sourceId, models, now, uuid);
    }
  }

  /** The records stored for any non-empty run of chunks are indexed whole,
      in order, provided the embedding model yields vectors of the index's
      width. */
  lemma {:induction false} StoredRecordsIndexedWhole(chunks: seq<string>, sourceId: string, models: Pipeline.Models,
                                                     now: string, uuid: nat -> string)
    requires chunks != []
    requires forall t :: |models.embed(t)| == EmbeddingDim
    ensures var records := Pipeline.StoreChunks(chunks, sourceId, models, now, uuid);
      && SearchEndpoint.BuildIndex(records, EmbeddingDim).Success?
      && SearchEndpoint.BuildIndex(records, EmbeddingDim).value.docs == records
  {
    var records := Pipeline.StoreChunks(chunks, sourceId, models, now, uuid);
    StoredRecordsComplete(chunks, sourceId, models, now, uuid);
    CompleteStoreIndexedWhole(records, EmbeddingDim);
  }

  /** Both copies of the search code build the same index over stored
      records, provided the embedding model yields vectors of the index's
      width. */
  lemma {:induction false} StoredRecordsBuildsAgree(chunks: seq<string>, sourceId: string, models: Pipeline.Models,
                                                    now: string, uuid: nat -> string)
    requires forall t :: |models.embed(t)| == EmbeddingDim
    ensures var records := Pipeline.StoreChunks(chunks, sourceId, models, now, uuid);
      FaissSearch.BuildIndex(records, EmbeddingDim) == SearchEndpoint.BuildIndex(records, EmbeddingDim)
  {
    var records := Pipeline.StoreChunks(chunks, sourceId, models, now, uuid);
    StoredRecordsComplete(chunks, sourceId, models, now, uuid);
    BuildsAgreeWithoutNull(records, EmbeddingDim);
  }

  /** Every record one ingestion run stores is indexed, in order, provided
      the embedding model yields vectors of the index's width. */
  lemma {:induction false} IngestedRecordsAllIndexed(raw: string, sourceId: string, models: Pipeline.Models,
                                                     now: string, uuid: nat -> string)
    requires Pipeline.LabelsFit(models)
    requires forall t :: |models.embed(t)| == EmbeddingDim
    requires Pipeline.RunPipeline(raw, sourceId, models, now, uuid) != []
    ensures var records := Pipeline.RunPipeline(raw, sourceId, models, now, uuid);
      && SearchEndpoint.BuildIndex(records, EmbeddingDim).Success?
      && SearchEndpoint.BuildIndex(records, EmbeddingDim).value.docs == records
  {
    StoredRecordsIndexedWhole(Pipeline.ChunksOf(models, raw), sourceId, models, now, uuid);
  }
}
